=== FILE: README.md ===
# Checkers rules engine, actors and turn loop — a Dafny model

This project models the core of a two-player, checkers-like terminal game:

- the **board rules** (`src/game/board.rs`): the starting layout, destination
  generation for one piece, the per-side move map and move execution
  (promotion, relocation and the capture sweep);
- the **friend/foe classification** of a cell (`src/side.rs`);
- the **actors** (`src/actor.rs`): the move map an actor computes, the
  `NoPiecesLeft` decision, the Random policy and the Human policy's two click
  loops and highlight passes;
- the **headless / terminal turn loop** of `Game::play` (`src/game/mod.rs`).

The rules are the ones the engine actually implements. A piece may land on
any empty cell of either diagonal through it, at any distance; a non-crowned
Red piece may not go to a smaller `y`, a non-crowned Blue piece not to a
larger `y`; the cells between origin and target are never looked at. A move
first crowns the piece (if it was crowned, or reaches Red's row `height - 1`
or Blue's row `0`), relocates it, then sweeps the half-open rectangle
`[min x, max x) × [min y, max y)` spanned by the move and removes every piece
hostile to the mover that lies on a diagonal through the origin. For a
diagonal move this removes exactly the opposing pieces strictly between the
two ends (`Boards.DiagonalSweep`).

Files and modules:

| file | module | models |
|---|---|---|
| `primitives.dfy` | `Primitives` | `Point`, `Piece`, `Side`, `u8` (`src/point.rs`, `src/piece.rs`, `src/side.rs`) |
| `sides.dfy` | `Sides` | `piece_is_friendly`, `piece_is_hostile` |
| `grid.dfy` | `Grid` | the x-major enumeration of board points and the order-preserving filter used by `valid_moves` |
| `board.dfy` | `Boards` | `Board::new`, `valid_moves`, `get_all_moves`, `do_action`, as pure functions |
| `board_methods.dfy` | `BoardMethods` | `Board::new` and `do_action` as the in-place nested loops the engine runs, proved equal to the functions |
| `actor.dfy` | `Actors` | `Actor::get_all_moves`, `Actor::act` |
| `game.dfy` | `Games` | `Game::play` |

Modelling choices:

- Coordinates and dimensions are `u8` (`Primitives.U8`). `height - 3` in
  `Board::new` is only evaluated when `y > 2` and `y < height`, so it never
  underflows; the model uses unbounded integers there without loss.
- A panic the source reaches through `unwrap()` or an out-of-range index is a
  precondition (`do_action` needs a piece at `from` and both points on the
  board). `todo!()` is the outcome `NotImplemented`; a Human actor that runs
  out of supplied clicks is `AwaitingClick` (the program would block).
- Random numbers are inputs: `rng.gen_range(0..n)` is `GenRange(n, draw) =
  draw % n` for a caller-supplied `draw`, which reaches every index of the
  range. `HashMap` iteration order is unspecified; the Random policy's list of
  origins is taken in x-major order (`Actors.Origins`); since every index is
  reachable, every legal action stays reachable (`Actors.RandomReachesEveryLegalAction`).
- Clicks are a finite sequence of points. The terminal's `next_click`
  (`src/game/terminal.rs:106-123`) drops clicks outside the board, and the
  Human loops skip those too.
- `src/actor.rs` is out of step with the rest of the repository: it imports
  `crate::board` and calls `board.terminal`, `board.draw()` and
  `board.next_click()`, none of which the `Board` of `src/game/board.rs` has,
  and `Game::play` passes the whole game to `act`. The model runs `act`
  against the `Board` of `src/game/board.rs`; the highlight flags it sets stay
  on the game's board, which `do_action` then updates.
- One iteration of the `Game::play` loop consumes one `Games.Tick`: the value
  of the exit flag at that iteration and the inputs each actor would use.
  When the ticks run out the outcome is `Unfinished`; the loop itself has no
  move limit.
- The loop's quirks are reproduced as written: Red acts first and Blue acts
  only if Red took an action; `moves` is declared afresh at the top of every
  iteration, so the recorded result is `GameResult(0, Blue)` when Red had no
  move and `GameResult(1, Red)` when Blue had none, never a total count
  (`Games.PlayLoop`, `Games.Play`).

## Model

| member | source | states |
|---|---|---|
| `Sides.IsFriendly` | src/side.rs:10-17 | an empty cell is friendly to no side; a friendly cell holds a piece not owned by the opponent, and an occupied cell that is not friendly holds the opponent's piece (with `Sides.EmptyIsNeutral`, `Sides.ExactlyOneOwner`: a piece is friendly to exactly its own side) |
| `Sides.IsHostile` | src/side.rs:19-26 | empty cell is not hostile; an occupied cell is hostile to a side iff it is not friendly to it, iff it is friendly to the opponent |
| `Sides.EmptyIsNeutral` | src/side.rs:10-21 | `None` is neither friendly nor hostile to any side |
| `Sides.ExactlyOneOwner` | src/side.rs:10-26 | a piece is friendly to its own side only and hostile to the other; for every side exactly one of friendly/hostile holds |
| `Sides.HostileMirrorsFriendly` | src/side.rs:10-26 | Red's hostile test equals Blue's friendly test and vice versa |
| `Grid.Points` | src/game/board.rs:62-67 | the enumeration contains exactly the points with `x < width`, `y < height`, strictly increasing in x-major order (each once) |
| `Grid.Select` | src/game/board.rs:69-95 | the filter keeps exactly the elements that pass the test and never adds any; an ascending input (every use passes the x-major enumeration) gives an ascending result |
| `Grid.AscendingUnique` | src/game/board.rs:62-95 | two strictly ascending lists with the same elements are equal, so a filtered enumeration keeps the enumeration's own order |
| `Boards.New` | src/game/board.rs:19-59 | `width` columns of `height` cells; nothing highlighted, nothing crowned; a piece at (x, y) iff `x % 2 == y % 2` and (`y <= 2` or `y >= height - 3`); Red iff `y <= 2` (Red wins where the zones overlap), Blue otherwise |
| `BoardMethods.NewInPlace` | src/game/board.rs:26-56 | the nested `while` loops build exactly the board `Boards.New` describes |
| `Boards.NewOnDarkSquares` | src/game/board.rs:33-46 | the starting layout puts every piece on a square with `x % 2 == y % 2` |
| `Boards.NewZones` | src/game/board.rs:33-46 | on a board of 6 or more rows, Red pieces fill exactly the dark squares of rows 0-2 and Blue pieces exactly those of the last three rows |
| `Boards.ValidMoves` | src/game/board.rs:61-97 | a point is returned iff it is on the board, `|dx| == |dy|` from the origin, passes the direction test and holds no piece; the list is strictly increasing in x-major order |
| `Boards.ValidMovesInScanOrder` | src/game/board.rs:61-97 | the destination list is the only strictly x-major-ascending list of exactly the points passing the destination tests, i.e. the scan order of the nested loops |
| `Boards.ValidMovesDistinct` | src/game/board.rs:63-95 | every destination is listed exactly once |
| `Boards.ValidMovesDirection` | src/game/board.rs:77-88 | a non-crowned Red piece never gets a smaller `y`, a non-crowned Blue piece never a larger `y`; a crowned piece gets every empty diagonal cell |
| `Boards.ValidMovesPathBlind` | src/game/board.rs:69-95 | whether `p` is a destination depends only on the emptiness of `p`, not on any cell between origin and `p` |
| `Boards.ValidMovesIgnoreHighlights` | src/game/board.rs:90-92 | highlight flags never change the destination list |
| `Boards.AllMoves` | src/game/board.rs:100-115 | key `p` iff cell `p` holds a piece friendly to the side whose destination list is non-empty; the value at `p` is that list |
| `Boards.AllMovesCharacterization` | src/game/board.rs:100-115 | (from, to) is in the move map iff `from` holds a friendly piece and `to` passes every destination test for it |
| `Boards.AllMovesDisjoint` | src/game/board.rs:104-105 | the two sides' move maps never share an origin |
| `Boards.AllMovesIgnoreHighlights` | src/game/board.rs:100-115 | highlight flags never change the move map |
| `Boards.MovableIgnoresHighlights` | src/game/board.rs:104-111 | whether a cell becomes a key, and the list stored under it, do not depend on highlight flags |
| `Boards.LegalIsDiagonal` | src/game/board.rs:100-115 | an action drawn from the move map starts at a piece of the side, ends on an empty cell on one of its diagonals, and is never a null move |
| `Boards.Crown` | src/game/board.rs:120-131 | a crowned piece stays crowned; an uncrowned Red piece is crowned iff it lands on the last row, an uncrowned Blue piece iff it lands on row 0 |
| `Boards.Sweep` | src/game/board.rs:137-168 | the board keeps its size; a cell is emptied iff both its coordinates lie in the half-open ranges from the smaller to the larger coordinate of `from` and `to`, it is on a diagonal through `from`, and holds a piece hostile to the mover; every other cell is unchanged |
| `Boards.DoAction` | src/game/board.rs:117-168 | `to` holds a piece of the mover's side, crowned iff already crowned or (Red and `to.y == height - 1`) or (Blue and `to.y == 0`); `from` is empty when `from != to`; every other cell is emptied iff it is in the half-open sweep rectangle, on a diagonal through `from`, and hostile; highlights unchanged |
| `BoardMethods.DoActionInPlace` | src/game/board.rs:117-168 | the in-place version (crown, move, nested sweep loops reading the board as it is updated) computes exactly `Boards.DoAction` |
| `BoardMethods.MovePiece` | src/game/board.rs:120-135 | the board keeps its size; `to` holds a piece of the mover's side, crowned iff it was crowned or (Red and `to.y == height - 1`) or (Blue and `to.y == 0`); `from` is empty when `from != to`; every other cell and every highlight is unchanged |
| `BoardMethods.SweepInPlace` | src/game/board.rs:137-168 | the bounds computation and the outer sweep loop, run in place, give exactly the functional sweep of the relocated board |
| `BoardMethods.SweepColumn` | src/game/board.rs:161-167 | one pass of the inner sweep loop processes exactly column `x` of the rectangle |
| `BoardMethods.SweepCell` | src/game/board.rs:162-166 | examining one cell empties it iff it is on a diagonal through `from` and hostile, reading the board as already updated, and touches no other cell |
| `Boards.DiagonalSweep` | src/game/board.rs:137-168 | for a diagonal move the swept cells other than the two ends are exactly the cells strictly between `from` and `to` |
| `Boards.DiagonalMoveCaptures` | src/game/board.rs:159-168 | a diagonal move empties every hostile piece strictly between `from` and `to` and leaves every other cell but the two ends as it was, friendly pieces included |
| `Boards.CaptureOnlyRemovesOpponents` | src/game/board.rs:159-168 | after a move every opposing piece was already there, and friendly pieces other than the mover are untouched |
| `Boards.DoActionKeepsDarkSquares` | src/game/board.rs:117-168 | a diagonal move keeps every piece on a dark square |
| `Boards.DoActionIgnoresHighlights` | src/game/board.rs:117-168 | highlight flags never change what a move does to the pieces |
| `Boards.JumpCaptures` | src/game/board.rs:117-168 | Red at (2,2) over Blue at (3,3) to an empty (4,4): the target is a destination, the move clears (2,2) and (3,3), and crowns exactly when row 4 is the last row |
| `Actors.CollectMoves` | src/actor.rs:41-56 | the actor's own nested-loop scan computes exactly the board's move map `Boards.AllMoves` |
| `Actors.CollectColumn` | src/actor.rs:45-53 | one pass of the inner loop adds exactly the keys of column `x`, with their lists |
| `Actors.CollectCell` | src/actor.rs:46-52 | a cell is recorded iff it holds a friendly piece whose destination list is non-empty, with that list |
| `Actors.GenRange` | src/actor.rs:125-130 | a draw is only ever taken from a non-empty range and lands in it; every index of the range is reachable |
| `Actors.Origins` | src/actor.rs:125-126 | the origins the Random policy indexes are exactly the keys of the move map, each once |
| `Actors.OriginsNonEmpty` | src/actor.rs:66-68 | once the `NoPiecesLeft` check has passed, the origin range is non-empty |
| `Actors.RandomChoice` | src/actor.rs:122-136 | for any draws, the returned `from` is a key of the move map and `to` is in its list; neither draw is from an empty range |
| `Actors.RandomReachesEveryLegalAction` | src/actor.rs:122-136 | every (from, to) pair of the move map is the Random policy's choice for some draws |
| `Actors.RandomChoiceAt` | src/actor.rs:125-133 | draws inside both ranges pick exactly the indexed origin and the indexed destination of its list |
| `Actors.HighlightWhere` | src/actor.rs:73-81 | a highlight pass sets every cell's flag to the given test and changes no piece |
| `Actors.SelectTarget` | src/actor.rs:112-118 | the destination loop returns `from` with the first click among the chosen piece's destinations, skipping every earlier click; it keeps waiting iff no click qualifies |
| `Actors.SelectPiece` | src/actor.rs:86-118 | an action's `from` holds a friendly piece with destinations and `to` is one of them; afterwards a cell is highlighted iff it is one of those destinations; with no qualifying click the actor keeps waiting with the board untouched |
| `Actors.SelectPieceClicks` | src/actor.rs:86-118 | `from` is the first click selecting a movable friendly piece, `to` the first later click among its destinations; every other click is skipped |
| `Actors.SelectPieceActs` | src/actor.rs:86-118 | conversely, when a click selects a movable piece after only skipped clicks and a later click is its first accepted destination, the loops take exactly that action |
| `Actors.SelectPieceSkipsTo` | src/actor.rs:86-101 | a prefix of clicks none of which selects a movable piece is consumed without effect |
| `Actors.SelectTargetTakes` | src/actor.rs:112-118 | the destination loop takes the first accepted click, whatever follows it |
| `Actors.ChosenByIgnoresHighlights` | src/actor.rs:73-108 | which clicks choose an action does not depend on highlight flags, only on the pieces |
| `Actors.FirstClickChosen` | src/actor.rs:86-118 | when the first click selects a movable piece, it is the origin and the target is the first later click among its destinations |
| `Actors.TargetChosen` | src/actor.rs:112-118 | the destination loop reads only the clicks after the selecting one, and its target is the first of them that is on the board and a destination |
| `Actors.ShiftChoice` | src/actor.rs:86-101 | a click the piece loop skips shifts both chosen click positions by one |
| `Actors.HumanChoice` | src/actor.rs:71-119 | the Human branch only waits or acts, changes no piece, and returns only legal actions |
| `Actors.HumanChoiceHighlights` | src/actor.rs:103-108 | after acting, the highlighted cells are exactly the chosen piece's destinations (the waiting case is `Actors.HumanChoiceWaitsLit`) |
| `Actors.HumanChoiceActs` | src/actor.rs:71-119 | the Human branch, after its first highlight pass, acts with exactly the action its clicks choose |
| `Actors.SelectPieceWaitsOnFirst` | src/actor.rs:103-119 | when the first click selects a piece and no later click is one of its destinations, the loops wait with exactly those destinations highlighted |
| `Actors.SelectPieceWaitsLit` | src/actor.rs:86-119 | once a piece is selected after only skipped clicks, while no later click is one of its destinations the loops wait with exactly its destinations highlighted |
| `Actors.WaitsOnIgnoresHighlights` | src/actor.rs:73-101 | whether the clicks leave the Human waiting for a destination, and the destinations involved, do not depend on highlight flags |
| `Actors.HumanChoiceWaitsLit` | src/actor.rs:71-119 | the Human branch waiting for a destination shows exactly the selected piece's destinations, its entry in the move map |
| `Actors.HumanChoiceWaits` | src/actor.rs:72-101 | while no click lands on a key of the move map, the actor keeps waiting with exactly those keys highlighted |
| `Actors.Act` | src/actor.rs:58-140 | `NoPiecesLeft` iff the move map is empty, and then the board is unchanged; every `TookAction` is legal; pieces never change; MostKills and Recursive policies with a move reach `todo!()`; only a Human waits for clicks |
| `Actors.HumanActsOnChosenClicks` | src/actor.rs:58-121 | a Human actor whose clicks choose a movable piece and one of its destinations takes exactly that action |
| `Actors.HumanWaitsWithDestinationsLit` | src/actor.rs:58-121 | `act` for a Human whose clicks select a piece but no destination waits with exactly that piece's destinations highlighted |
| `Actors.HumanWaitsForAPiece` | src/actor.rs:66-101 | `act` for a Human with a move but no click on a key of the move map waits, with exactly those keys highlighted |
| `Actors.RandomActReachesEveryLegalAction` | src/actor.rs:58-137 | every legal action is what `act` returns for a Random actor under some draws, with the board untouched |
| `Actors.RandomAlwaysDecides` | src/actor.rs:122-136 | the Random policy never waits and never panics, and takes an action iff its side has a move |
| `Games.BlueTurn` | src/game/mod.rs:80-95 | Red is recorded as winner iff Blue has no move on the board as Red's move left it; otherwise Blue's legal action is applied |
| `Games.Round` | src/game/mod.rs:61-97 | the board keeps its size and a recorded result is `(0, Blue)` or `(1, Red)`, never a running total |
| `Games.RoundBlueWins` | src/game/mod.rs:61-69 | `(0, Blue)` is recorded iff Red has no move at the start of the iteration, and then the board is left as it was |
| `Games.RoundRedWins` | src/game/mod.rs:63-86 | `(1, Red)` is recorded iff Red took an action and Blue has no move on the board after applying it; Blue never acts before Red's action is applied |
| `Games.RoundBothMove` | src/game/mod.rs:71-93 | an iteration without a winner applies one legal Red action, then one legal Blue action on the resulting board |
| `Games.PlayLoop` | src/game/mod.rs:50-98 | a recorded winner is never replaced; headless, the loop returns only with a winner, and on the iteration after it is recorded; with a terminal, no action is taken once a winner exists, a return needs some tick with the exit flag, and an iteration whose exit flag is set returns at once; once a winner exists the loop returns iff some later tick has the exit flag |
| `Games.PlayLoopRound` | src/game/mod.rs:50-97 | with no winner recorded and no exit requested, one tick of the loop has exactly the outcome of the loop body `Games.Round` on the current board (played, blocked or panicked) |
| `Games.PlayLoopIteration` | src/game/mod.rs:61-97 | one loop iteration without a winner records Blue with 0 moves iff Red has no move (board untouched), records Red with 1 move iff Red moved and Blue then had none, and otherwise applies one legal Red move and then one legal Blue move on the board Red's move left |
| `Games.PlayLoopIdles` | src/game/mod.rs:50-62 | with a terminal and a winner, an iteration whose exit flag is clear does nothing |
| `Games.PlayLoopStep` | src/game/mod.rs:50-98 | one iteration: the first tick alone either ends the run with the outcome of the whole run, or leaves a valid board of the same size and winner from which the remaining ticks continue |
| `Games.PlayLoopSplit` | src/game/mod.rs:50-98 | running the first `n` ticks and then the rest from where they left off equals running them all; with the exit clauses of `Games.PlayLoop`, the loop returns at the first iteration whose exit test fires |
| `Games.Play` | src/game/mod.rs:34-98 | a Human actor without a terminal is refused before any actor acts, and only then; a headless game returns `(0, Blue)` or `(1, Red)` |
| `Games.RedWithoutMovesLoses` | src/game/mod.rs:57-69 | headless, if Red has no move at the start, Blue is recorded with 0 moves and returned on the next iteration with the board untouched |
| `Games.RandomLoopNeverStalls` | src/game/mod.rs:50-98 | Random against Random never waits for input and never panics |
| `Games.PlayLoopKeepsDarkSquares` | src/game/mod.rs:50-98 | every board the loop reaches keeps all pieces on dark squares |
| `Games.PlayFromNewKeepsDarkSquares` | src/game/mod.rs:34-98 | a game started from the initial layout only shows pieces on dark squares |

## Left out

- Terminal I/O (`src/game/terminal.rs`): raw mode, alternate screen, mouse capture, the click channel and event loop, drawing. Only the board-bounds filter of `next_click` is modelled; `terminal_cord_to_board` is a halving of the column and is not modelled.
- `Game::new` (`src/game/mod.rs:20-31`): it only opens the terminal wrapper (I/O) and calls `Board::new`, which is `Boards.New`.
- The pacing `sleep_ms` of `act`, every `draw()` and `println!`, and the `?` error paths of `draw` (I/O failures).
- The random number generator (replaced by caller-supplied draws) and `HashMap` iteration order (replaced by x-major order of the keys).
- The `AtomicBool` exit flag and the async runtime: the flag is the per-iteration boolean of a `Tick`.
- Termination of `Game::play`: the loop has no move limit; the model runs for as many iterations as ticks are supplied.
- The MostKills policy, the Recursive (self-play) policy and any simulation orchestration: the source reaches `todo!()` for them, which the model reports as `NotImplemented`.
- `src/board.rs` and `src/main.rs`: a superseded snapshot with a hard-coded layout and an endless `loop {}`.
- Channel failure of `next_click` (the `unwrap()` on a closed channel): not modelled; an exhausted click sequence is reported as `AwaitingClick` instead.

=== FILE: actor.dfy ===
/**
  Actors: the per-side decision policies. Given a board, an actor either
  reports that its side has no legal move (`NoPiecesLeft`, the loss signal)
  or picks one action from its side's move map.

  What the outside world supplies to one decision is an explicit input: the
  two random draws of the Random policy and the stream of clicks of the Human
  policy. The pacing delay, the redraws and the prompts are left out.
 */
module Actors {
  import opened Primitives
  import opened Sides
  import opened Grid
  import opened Boards

  /** The policies a nested simulation may use. */
  datatype RecursiveActorType = SubRandom | SubMostKills

  datatype ActorType = Human | Random | MostKills | Recursive(sub: RecursiveActorType)

  datatype Actor = Actor(actorType: ActorType, side: Side)

  datatype ActionResult = TookAction(action: Action) | NoPiecesLeft

  /**
    The outside world's contribution to one decision: the raw draws behind the
    Random policy's two `gen_range` calls, and the clicks a Human makes, in
    order (clicks outside the board included).
   */
  datatype ActorInput = ActorInput(pieceDraw: nat, moveDraw: nat, clicks: seq<Point>)

  /**
    The result of one call of `act`: a decision together with the board as the
    actor leaves it (only highlight flags may have changed); or the actor is
    still waiting for a click when the supplied clicks run out; or the policy
    reached `todo!()`.
   */
  datatype ActOutcome =
    | Acted(result: ActionResult, board: Board)
    | AwaitingClick(board: Board)
    | NotImplemented

  // ---------------------------------------------------------------------
  // The move map, as the actor computes it
  // ---------------------------------------------------------------------

  /** `Actor::get_all_moves`: the same scan as the board's, written as the actor's nested loops. */
  method CollectMoves(actor: Actor, b: Board) returns (m: map<Point, seq<Point>>)
    requires b.Valid()
    ensures m == AllMoves(b, actor.side)
  {
    ghost var all := AllMoves(b, actor.side);
    m := map[];
    var x: int := 0;
    while x < b.width
      invariant 0 <= x <= b.width
      invariant forall p :: p in m <==> p.x < x && p in all
      invariant forall p :: p in m ==> m[p] == all[p]
    {
      m := CollectColumn(actor, b, m, x);
      x := x + 1;
    }
    assert forall p :: p in all ==> p.x < b.width;
    assert m.Keys == all.Keys;
  }

  /** The inner `for y in 0..height` loop of `Actor::get_all_moves`, at column `x`. */
  method CollectColumn(actor: Actor, b: Board, m0: map<Point, seq<Point>>, x: U8) returns (m: map<Point, seq<Point>>)
    requires b.Valid() && x < b.width
    requires forall p :: p in m0 <==> p.x < x && p in AllMoves(b, actor.side)
    requires forall p :: p in m0 ==> m0[p] == AllMoves(b, actor.side)[p]
    ensures forall p :: p in m <==> p.x <= x && p in AllMoves(b, actor.side)
    ensures forall p :: p in m ==> m[p] == AllMoves(b, actor.side)[p]
  {
    ghost var all := AllMoves(b, actor.side);
    m := m0;
    var y: int := 0;
    while y < b.height
      invariant 0 <= y <= b.height
      invariant forall p :: p in m <==> (p.x < x || (p.x == x && p.y < y)) && p in all
      invariant forall p :: p in m ==> m[p] == all[p]
    {
      m := CollectCell(actor, b, m, x, y);
      y := y + 1;
    }
  }

  /** The body of the inner loop: record cell `(x, y)` if it holds a friendly piece with a destination. */
  method CollectCell(actor: Actor, b: Board, m0: map<Point, seq<Point>>, x: U8, y: U8) returns (m: map<Point, seq<Point>>)
    requires b.Valid() && x < b.width && y < b.height
    requires forall p :: p in m0 <==> (p.x < x || (p.x == x && p.y < y)) && p in AllMoves(b, actor.side)
    requires forall p :: p in m0 ==> m0[p] == AllMoves(b, actor.side)[p]
    ensures forall p :: p in m <==> (p.x < x || (p.x == x && p.y <= y)) && p in AllMoves(b, actor.side)
    ensures forall p :: p in m ==> m[p] == AllMoves(b, actor.side)[p]
  {
    var here := Point(x, y);
    var piece := b.state[x][y].piece;
    assert b.InBounds(here) && piece == b.At(here).piece;
    m := m0;
    if IsFriendly(actor.side, piece) {
      var moves := ValidMoves(b, here, piece.value);
      if |moves| != 0 {
        m := m[here := moves];
      }
    }
  }

  // ---------------------------------------------------------------------
  // The Random policy
  // ---------------------------------------------------------------------

  /**
    `rng.gen_range(0..n)` with the raw draw supplied by the caller; the
    library panics on an empty range, hence `n > 0`. Every index of the range
    is reachable.
   */
  function GenRange(n: nat, draw: nat): (i: nat)
    requires n > 0
    ensures i < n
    ensures draw < n ==> i == draw
  {
    draw % n
  }

  /**
    The keys of `side`'s move map in the order the Random policy indexes them.
    (The map's own iteration order is unspecified; x-major order is used here.
    Since every index is reachable, every key stays reachable.)
   */
  function Origins(b: Board, side: Side): (ks: seq<Point>)
    requires b.Valid()
    ensures forall p :: p in ks <==> p in AllMoves(b, side)
    ensures Ascending(ks)
  {
    var m := AllMoves(b, side);
    Select(Points(b.width, b.height), m.Keys)
  }

  /** A non-empty move map yields at least one origin to draw from. */
  lemma OriginsNonEmpty(b: Board, side: Side)
    requires b.Valid() && AllMoves(b, side) != map[]
    ensures |Origins(b, side)| > 0
  {
    var k :| k in AllMoves(b, side);
    assert k in Origins(b, side);
  }

  /**
    The Random branch of `act`: draw an origin among the move map's keys, then
    a destination from that origin's list. Neither draw is from an empty range.
   */
  function RandomChoice(b: Board, side: Side, input: ActorInput): (a: Action)
    requires b.Valid() && AllMoves(b, side) != map[]
    ensures Legal(b, side, a)
  {
    var keys := Origins(b, side);
    OriginsNonEmpty(b, side);
    var from := keys[GenRange(|keys|, input.pieceDraw)];
    var moves := AllMoves(b, side)[from];
    var to := moves[GenRange(|moves|, input.moveDraw)];
    Action(from, to)
  }

  /** Every legal action is the Random policy's choice for some pair of draws. */
  lemma RandomReachesEveryLegalAction(b: Board, side: Side, a: Action)
    requires b.Valid() && Legal(b, side, a)
    ensures exists input :: RandomChoice(b, side, input) == a
  {
    var keys := Origins(b, side);
    var i :| 0 <= i < |keys| && keys[i] == a.from;
    var moves := AllMoves(b, side)[a.from];
    var j :| 0 <= j < |moves| && moves[j] == a.to;
    RandomChoiceAt(b, side, i, j);
    assert RandomChoice(b, side, ActorInput(i, j, [])) == a;
  }

  /** Draws inside both ranges select exactly the indexed origin and destination. */
  lemma RandomChoiceAt(b: Board, side: Side, i: nat, j: nat)
    requires b.Valid() && i < |Origins(b, side)|
    requires j < |AllMoves(b, side)[Origins(b, side)[i]]|
    ensures AllMoves(b, side) != map[]
    ensures var from := Origins(b, side)[i];
      RandomChoice(b, side, ActorInput(i, j, [])) == Action(from, AllMoves(b, side)[from][j])
  {
    var keys := Origins(b, side);
    assert keys[i] in AllMoves(b, side);
    assert GenRange(|keys|, i) == i;
    assert GenRange(|AllMoves(b, side)[keys[i]]|, j) == j;
  }

  // ---------------------------------------------------------------------
  // The Human policy
  // ---------------------------------------------------------------------

  /** One highlight pass: every cell's flag is set to whether it is in `lit`. */
  function HighlightWhere(b: Board, lit: set<Point>): (r: Board)
    requires b.Valid()
    ensures SamePieces(b, r)
    ensures forall p :: b.InBounds(p) ==> r.At(p).highlighted == (p in lit)
  {
    b.(state := seq(|b.state|, x requires 0 <= x < |b.state| =>
      seq(|b.state[x]|, y requires 0 <= y < |b.state[x]| =>
        b.state[x][y].(highlighted := Point(x, y) in lit))))
  }

  /** A click the destination loop accepts: on the board and among `moves`. */
  predicate AcceptsTarget(b: Board, moves: seq<Point>, c: Point)
  {
    b.InBounds(c) && c in moves
  }

  /**
    The inner click loop: discard clicks until one lands on a destination of
    the chosen piece, then take the action.
   */
  function SelectTarget(b: Board, from: Point, moves: seq<Point>, clicks: seq<Point>): (out: ActOutcome)
    ensures out.Acted? || out.AwaitingClick?
    ensures out.board == b
    ensures out.Acted? ==> out.result.TookAction? && out.result.action.from == from && out.result.action.to in moves
    ensures out.Acted? ==> exists j :: 0 <= j < |clicks| && clicks[j] == out.result.action.to &&
                             (forall k :: 0 <= k < j ==> !AcceptsTarget(b, moves, clicks[k]))
    ensures out.AwaitingClick? <==> forall k :: 0 <= k < |clicks| ==> !AcceptsTarget(b, moves, clicks[k])
    decreases |clicks|
  {
    if clicks == [] then AwaitingClick(b)
    else if !AcceptsTarget(b, moves, clicks[0]) then
      var out := SelectTarget(b, from, moves, clicks[1..]);
      assert forall k :: 0 < k < |clicks| ==> clicks[k] == clicks[1..][k - 1];
      out
    else Acted(TookAction(Action(from, clicks[0])), b)
  }

  /**
    The outer click loop: discard clicks until one lands on a friendly piece
    with at least one destination (the three tests of the loop, in order:
    on the board, friendly, non-empty destination list), highlight exactly
    that piece's destinations, then hand over to the destination loop, which
    never goes back to piece selection.
   */
  function SelectPiece(b: Board, side: Side, clicks: seq<Point>): (out: ActOutcome)
    requires b.Valid()
    ensures out.Acted? || out.AwaitingClick?
    ensures SamePieces(b, out.board)
    ensures out.Acted? ==> out.result.TookAction? && Movable(b, side, out.result.action.from)
    ensures out.Acted? ==>
      var a := out.result.action;
      var moves := ValidMoves(b, a.from, b.At(a.from).piece.value);
      && a.to in moves
      && forall p :: b.InBounds(p) ==> (out.board.At(p).highlighted <==> p in moves)
    ensures (forall k :: 0 <= k < |clicks| ==> !Movable(b, side, clicks[k])) ==> out == AwaitingClick(b)
    decreases |clicks|
  {
    if clicks == [] then AwaitingClick(b)
    else
      var c := clicks[0];
      if !Movable(b, side, c) then
        assert forall k :: 0 <= k < |clicks[1..]| ==> clicks[1..][k] == clicks[k + 1];
        SelectPiece(b, side, clicks[1..])
      else
        var moves := ValidMoves(b, c, b.At(c).piece.value);
        SelectTarget(HighlightWhere(b, set p | p in moves), c, moves, clicks[1..])
  }

  /** The clicks the Human branch acts on, as indices into the click stream. */
  ghost predicate ChosenBy(b: Board, side: Side, clicks: seq<Point>, a: Action, i: int, j: int)
    requires b.Valid() && Movable(b, side, a.from)
  {
    var moves := ValidMoves(b, a.from, b.At(a.from).piece.value);
    && 0 <= i < j < |clicks| && clicks[i] == a.from && clicks[j] == a.to
    && AcceptsTarget(b, moves, a.to)
    && (forall k :: 0 <= k < i ==> !Movable(b, side, clicks[k]))
    && (forall k :: i < k < j ==> !AcceptsTarget(b, moves, clicks[k]))
  }

  /**
    The origin of the Human branch's action is the first click that selects a
    movable friendly piece, and its destination the first later click among
    that piece's destinations; every other click is skipped.
   */
  lemma {:induction false} SelectPieceClicks(b: Board, side: Side, clicks: seq<Point>)
    requires b.Valid()
    ensures var out := SelectPiece(b, side, clicks);
      out.Acted? ==> exists i, j :: ChosenBy(b, side, clicks, out.result.action, i, j)
    decreases |clicks|
  {
    var out := SelectPiece(b, side, clicks);
    if clicks != [] && out.Acted? {
      var a := out.result.action;
      if !Movable(b, side, clicks[0]) {
        assert out == SelectPiece(b, side, clicks[1..]);
        SelectPieceClicks(b, side, clicks[1..]);
        var i, j :| ChosenBy(b, side, clicks[1..], a, i, j);
        ShiftChoice(b, side, clicks, a, i, j);
      } else {
        FirstClickChosen(b, side, clicks);
      }
    }
  }

  /** When the first click selects a movable piece, it is the origin and the destination loop picks the target. */
  lemma FirstClickChosen(b: Board, side: Side, clicks: seq<Point>)
    requires b.Valid() && |clicks| > 0 && Movable(b, side, clicks[0])
    ensures var out := SelectPiece(b, side, clicks);
      out.Acted? ==> exists j :: ChosenBy(b, side, clicks, out.result.action, 0, j)
  {
    var out := SelectPiece(b, side, clicks);
    if out.Acted? {
      var a := out.result.action;
      var moves := ValidMoves(b, a.from, b.At(a.from).piece.value);
      var lit := HighlightWhere(b, set p | p in moves);
      assert out == SelectTarget(lit, clicks[0], moves, clicks[1..]);
      TargetChosen(b, lit, clicks[0], moves, clicks);
      var j :| 0 < j < |clicks| && clicks[j] == a.to && forall k :: 0 < k < j ==> !AcceptsTarget(b, moves, clicks[k]);
      assert ChosenBy(b, side, clicks, a, 0, j);
    }
  }

  /**
    The destination loop runs on the clicks after the one that chose the
    piece; its target is the first of those that is a destination. Only the
    board's size matters to that test, so highlighting does not change it.
   */
  lemma TargetChosen(b: Board, lit: Board, from: Point, moves: seq<Point>, clicks: seq<Point>)
    requires |clicks| > 0 && lit.width == b.width && lit.height == b.height
    ensures var out := SelectTarget(lit, from, moves, clicks[1..]);
      out.Acted? ==> exists j :: (0 < j < |clicks| && clicks[j] == out.result.action.to &&
                                  forall k :: 0 < k < j ==> !AcceptsTarget(b, moves, clicks[k]))
  {
    var out := SelectTarget(lit, from, moves, clicks[1..]);
    if out.Acted? {
      var j :| 0 <= j < |clicks[1..]| && clicks[1..][j] == out.result.action.to &&
        (forall k :: 0 <= k < j ==> !AcceptsTarget(lit, moves, clicks[1..][k]));
      forall k | 0 < k < j + 1 ensures !AcceptsTarget(b, moves, clicks[k]) {
        assert clicks[k] == clicks[1..][k - 1];
      }
      assert clicks[j + 1] == out.result.action.to;
    }
  }

  /** The destination loop takes the first accepted click, wherever it comes. */
  lemma {:induction false} SelectTargetTakes(b: Board, from: Point, moves: seq<Point>, clicks: seq<Point>, j: nat)
    requires j < |clicks| && AcceptsTarget(b, moves, clicks[j])
    requires forall k :: 0 <= k < j ==> !AcceptsTarget(b, moves, clicks[k])
    ensures SelectTarget(b, from, moves, clicks) == Acted(TookAction(Action(from, clicks[j])), b)
    decreases j
  {
    if j > 0 {
      assert !AcceptsTarget(b, moves, clicks[0]);
      SelectTargetTakes(b, from, moves, clicks[1..], j - 1);
    }
  }

  /**
    Conversely to `SelectPieceClicks`: once the clicks contain a movable piece
    followed by one of its destinations, with only skipped clicks before each,
    the Human branch takes exactly that action.
   */
  lemma SelectPieceActs(b: Board, side: Side, clicks: seq<Point>, a: Action, i: int, j: int)
    requires b.Valid() && Movable(b, side, a.from)
    requires ChosenBy(b, side, clicks, a, i, j)
    ensures SelectPiece(b, side, clicks).Acted? && SelectPiece(b, side, clicks).result == TookAction(a)
  {
    var moves := ValidMoves(b, a.from, b.At(a.from).piece.value);
    SelectPieceSkipsTo(b, side, clicks, i);
    forall k | 0 < k < j - i ensures !AcceptsTarget(b, moves, clicks[i..][k]) {
      assert clicks[i..][k] == clicks[i + k];
    }
    SelectPieceActsOnFirst(b, side, clicks[i..], a, j - i);
  }

  /** The piece loop skips a prefix of unmovable clicks without effect. */
  lemma SelectPieceSkipsTo(b: Board, side: Side, clicks: seq<Point>, i: int)
    requires b.Valid() && 0 <= i <= |clicks|
    requires forall k :: 0 <= k < i ==> !Movable(b, side, clicks[k])
    ensures SelectPiece(b, side, clicks) == SelectPiece(b, side, clicks[i..])
  {
    var run := (cs: seq<Point>) => if b.Valid() then SelectPiece(b, side, cs) else AwaitingClick(b);
    var skip := (p: Point) => b.Valid() && !Movable(b, side, p);
    forall t: seq<Point> | t != [] && skip(t[0]) ensures run(t) == run(t[1..]) {
      SelectPieceSkipsOne(b, side, t);
    }
    SkipPrefix(run, skip, clicks, i);
  }


  /** One step of `SelectPieceSkipsTo`. */
  lemma SelectPieceSkipsOne(b: Board, side: Side, clicks: seq<Point>)
    requires b.Valid() && clicks != [] && !Movable(b, side, clicks[0])
    ensures SelectPiece(b, side, clicks) == SelectPiece(b, side, clicks[1..])
  {
  }

  /** The first click selects the piece and click `j` is its first accepted destination. */
  lemma SelectPieceActsOnFirst(b: Board, side: Side, clicks: seq<Point>, a: Action, j: int)
    requires b.Valid() && Movable(b, side, a.from)
    requires 0 < j < |clicks| && clicks[0] == a.from && clicks[j] == a.to
    requires var moves := ValidMoves(b, a.from, b.At(a.from).piece.value);
      && AcceptsTarget(b, moves, a.to)
      && forall k :: 0 < k < j ==> !AcceptsTarget(b, moves, clicks[k])
    ensures SelectPiece(b, side, clicks).Acted? && SelectPiece(b, side, clicks).result == TookAction(a)
  {
    var moves := ValidMoves(b, a.from, b.At(a.from).piece.value);
    var lit := HighlightWhere(b, set p | p in moves);
    forall k | 0 <= k < j - 1 ensures !AcceptsTarget(b, moves, clicks[1..][k]) {
      assert clicks[1..][k] == clicks[k + 1];
    }
    SelectTargetTakesOn(b, lit, a.from, moves, clicks[1..], j - 1);
  }

  /** `SelectTargetTakes` on a board with the same dimensions as the one the clicks were judged on. */
  lemma SelectTargetTakesOn(b: Board, lit: Board, from: Point, moves: seq<Point>, clicks: seq<Point>, j: nat)
    requires lit.width == b.width && lit.height == b.height
    requires j < |clicks| && AcceptsTarget(b, moves, clicks[j])
    requires forall k :: 0 <= k < j ==> !AcceptsTarget(b, moves, clicks[k])
    ensures SelectTarget(lit, from, moves, clicks) == Acted(TookAction(Action(from, clicks[j])), lit)
  {
    assert forall k :: 0 <= k < |clicks| ==> AcceptsTarget(lit, moves, clicks[k]) == AcceptsTarget(b, moves, clicks[k]);
    SelectTargetTakes(lit, from, moves, clicks, j);
  }

  /**
    The clicks on which the Human branch waits for a destination: click `i`
    selects a movable piece after only skipped clicks, and no later click is
    one of its destinations.
   */
  ghost predicate WaitsOn(b: Board, side: Side, clicks: seq<Point>, i: int)
    requires b.Valid()
  {
    && 0 <= i < |clicks| && Movable(b, side, clicks[i])
    && (forall k :: 0 <= k < i ==> !Movable(b, side, clicks[k]))
    && var moves := ValidMoves(b, clicks[i], b.At(clicks[i]).piece.value);
       forall k :: i < k < |clicks| ==> !AcceptsTarget(b, moves, clicks[k])
  }

  /** `SelectTarget` keeps waiting, on a board with the dimensions the clicks were judged on. */
  lemma SelectTargetWaitsOn(b: Board, lit: Board, from: Point, moves: seq<Point>, clicks: seq<Point>)
    requires lit.width == b.width && lit.height == b.height
    requires forall k :: 0 <= k < |clicks| ==> !AcceptsTarget(b, moves, clicks[k])
    ensures SelectTarget(lit, from, moves, clicks) == AwaitingClick(lit)
  {
    assert forall k :: 0 <= k < |clicks| ==> AcceptsTarget(lit, moves, clicks[k]) == AcceptsTarget(b, moves, clicks[k]);
  }

  /** The first click selects a piece and no later click is one of its destinations. */
  lemma SelectPieceWaitsOnFirst(b: Board, side: Side, clicks: seq<Point>)
    requires b.Valid() && clicks != [] && Movable(b, side, clicks[0])
    requires var moves := ValidMoves(b, clicks[0], b.At(clicks[0]).piece.value);
      forall k :: 0 < k < |clicks| ==> !AcceptsTarget(b, moves, clicks[k])
    ensures var out := SelectPiece(b, side, clicks);
      var moves := ValidMoves(b, clicks[0], b.At(clicks[0]).piece.value);
      && out.AwaitingClick?
      && forall p :: b.InBounds(p) ==> (out.board.At(p).highlighted <==> p in moves)
  {
    var moves := ValidMoves(b, clicks[0], b.At(clicks[0]).piece.value);
    var lit := HighlightWhere(b, set p | p in moves);
    forall k | 0 <= k < |clicks| - 1 ensures !AcceptsTarget(b, moves, clicks[1..][k]) {
      assert clicks[1..][k] == clicks[k + 1];
    }
    SelectTargetWaitsOn(b, lit, clicks[0], moves, clicks[1..]);
  }

  /**
    Once a piece is selected the second highlight pass has run: while no
    later click is one of its destinations, the loops wait with exactly
    those destinations highlighted.
   */
  lemma SelectPieceWaitsLit(b: Board, side: Side, clicks: seq<Point>, i: int)
    requires b.Valid() && WaitsOn(b, side, clicks, i)
    ensures var out := SelectPiece(b, side, clicks);
      var moves := ValidMoves(b, clicks[i], b.At(clicks[i]).piece.value);
      && out.AwaitingClick?
      && forall p :: b.InBounds(p) ==> (out.board.At(p).highlighted <==> p in moves)
  {
    var moves := ValidMoves(b, clicks[i], b.At(clicks[i]).piece.value);
    SelectPieceSkipsTo(b, side, clicks, i);
    forall k | 0 < k < |clicks[i..]| ensures !AcceptsTarget(b, moves, clicks[i..][k]) {
      assert clicks[i..][k] == clicks[i + k];
    }
    SelectPieceWaitsOnFirst(b, side, clicks[i..]);
  }

  /** Which clicks choose an action depends on the pieces only, not on highlights. */
  lemma ChosenByIgnoresHighlights(b: Board, b': Board, side: Side, clicks: seq<Point>, a: Action, i: int, j: int)
    requires SamePieces(b, b') && Movable(b, side, a.from)
    requires ChosenBy(b, side, clicks, a, i, j)
    ensures Movable(b', side, a.from) && ChosenBy(b', side, clicks, a, i, j)
  {
    forall p ensures Movable(b, side, p) == Movable(b', side, p) {
      MovableIgnoresHighlights(b, b', side, p);
    }
    ValidMovesIgnoreHighlights(b, b', a.from, b.At(a.from).piece.value);
  }

  /** A skipped first click shifts the chosen indices by one. */
  lemma ShiftChoice(b: Board, side: Side, clicks: seq<Point>, a: Action, i: int, j: int)
    requires b.Valid() && Movable(b, side, a.from)
    requires |clicks| > 0 && !Movable(b, side, clicks[0])
    requires ChosenBy(b, side, clicks[1..], a, i, j)
    ensures ChosenBy(b, side, clicks, a, i + 1, j + 1)
  {
    var moves := ValidMoves(b, a.from, b.At(a.from).piece.value);
    forall k | 0 <= k < i + 1 ensures !Movable(b, side, clicks[k]) {
      if k > 0 {
        assert clicks[k] == clicks[1..][k - 1];
      }
    }
    forall k | i + 1 < k < j + 1 ensures !AcceptsTarget(b, moves, clicks[k]) {
      assert clicks[k] == clicks[1..][k - 1];
    }
  }

  /**
    The Human branch of `act`: highlight exactly the keys of the move map,
    then run the two click loops.
   */
  function HumanChoice(b: Board, side: Side, clicks: seq<Point>): (out: ActOutcome)
    requires b.Valid()
    ensures out.Acted? || out.AwaitingClick?
    ensures SamePieces(b, out.board)
    ensures out.Acted? ==> out.result.TookAction? && Legal(b, side, out.result.action)
  {
    var moves := AllMoves(b, side);
    var lit := HighlightWhere(b, moves.Keys);
    AllMovesIgnoreHighlights(b, lit, side);
    var out := SelectPiece(lit, side, clicks);
    if out.Acted? then
      ValidMovesIgnoreHighlights(b, lit, out.result.action.from, b.At(out.result.action.from).piece.value);
      out
    else out
  }

  /** After a decision, the Human branch leaves exactly the chosen piece's destinations highlighted. */
  lemma HumanChoiceHighlights(b: Board, side: Side, clicks: seq<Point>)
    requires b.Valid()
    ensures var out := HumanChoice(b, side, clicks);
      out.Acted? ==> forall p :: b.InBounds(p) ==>
        (out.board.At(p).highlighted <==> p in AllMoves(b, side)[out.result.action.from])
  {
    var moves := AllMoves(b, side);
    var lit := HighlightWhere(b, moves.Keys);
    AllMovesIgnoreHighlights(b, lit, side);
    var out := SelectPiece(lit, side, clicks);
    assert out == HumanChoice(b, side, clicks);
    if out.Acted? {
      ValidMovesIgnoreHighlights(b, lit, out.result.action.from, b.At(out.result.action.from).piece.value);
    }
  }

  /**
    Until a click lands on a key of the move map the Human branch keeps
    waiting, with exactly those keys highlighted.
   */
  lemma HumanChoiceWaits(b: Board, side: Side, clicks: seq<Point>)
    requires b.Valid()
    requires forall k :: 0 <= k < |clicks| ==> clicks[k] !in AllMoves(b, side)
    ensures var out := HumanChoice(b, side, clicks);
      out.AwaitingClick? && forall p :: b.InBounds(p) ==> (out.board.At(p).highlighted <==> p in AllMoves(b, side))
  {
    var moves := AllMoves(b, side);
    var lit := HighlightWhere(b, moves.Keys);
    AllMovesIgnoreHighlights(b, lit, side);
    assert forall k :: 0 <= k < |clicks| ==> !Movable(lit, side, clicks[k]);
    assert SelectPiece(lit, side, clicks) == AwaitingClick(lit);
  }

  /**
    The Human branch acts as soon as its clicks choose a piece and one of its
    destinations: highlighting the keys of the move map first changes nothing
    about which clicks qualify.
   */
  lemma HumanChoiceActs(b: Board, side: Side, clicks: seq<Point>, a: Action, i: int, j: int)
    requires b.Valid() && Movable(b, side, a.from)
    requires ChosenBy(b, side, clicks, a, i, j)
    ensures HumanChoice(b, side, clicks).Acted? && HumanChoice(b, side, clicks).result == TookAction(a)
  {
    var lit := HighlightWhere(b, AllMoves(b, side).Keys);
    ChosenByIgnoresHighlights(b, lit, side, clicks, a, i, j);
    SelectPieceActs(lit, side, clicks, a, i, j);
    assert HumanChoice(b, side, clicks) == SelectPiece(lit, side, clicks);
  }

  /** Whether the clicks leave the Human waiting for a destination depends on the pieces only. */
  lemma WaitsOnIgnoresHighlights(b: Board, b': Board, side: Side, clicks: seq<Point>, i: int)
    requires SamePieces(b, b') && WaitsOn(b, side, clicks, i)
    ensures WaitsOn(b', side, clicks, i)
    ensures ValidMoves(b', clicks[i], b'.At(clicks[i]).piece.value) == ValidMoves(b, clicks[i], b.At(clicks[i]).piece.value)
  {
    forall p ensures Movable(b, side, p) == Movable(b', side, p) {
      MovableIgnoresHighlights(b, b', side, p);
    }
    ValidMovesIgnoreHighlights(b, b', clicks[i], b.At(clicks[i]).piece.value);
  }

  /**
    The Human branch waiting for a destination: after a piece is selected
    and no later click is one of its destinations, it waits with exactly
    that piece's destinations highlighted.
   */
  lemma HumanChoiceWaitsLit(b: Board, side: Side, clicks: seq<Point>, i: int)
    requires b.Valid() && WaitsOn(b, side, clicks, i)
    ensures var out := HumanChoice(b, side, clicks);
      && out.AwaitingClick?
      && forall p :: b.InBounds(p) ==> (out.board.At(p).highlighted <==> p in AllMoves(b, side)[clicks[i]])
  {
    var lit := HighlightWhere(b, AllMoves(b, side).Keys);
    WaitsOnIgnoresHighlights(b, lit, side, clicks, i);
    SelectPieceWaitsLit(lit, side, clicks, i);
    assert HumanChoice(b, side, clicks) == SelectPiece(lit, side, clicks);
  }

  // ---------------------------------------------------------------------
  // act
  // ---------------------------------------------------------------------

  /**
    `Actor::act`: report `NoPiecesLeft` when the side's move map is empty,
    otherwise decide according to the policy. MostKills and the recursive
    policies are `todo!()`.
   */
  function Act(actor: Actor, b: Board, input: ActorInput): (out: ActOutcome)
    requires b.Valid()
    ensures (out.Acted? && out.result.NoPiecesLeft?) <==> AllMoves(b, actor.side) == map[]
    ensures AllMoves(b, actor.side) == map[] ==> out == Acted(NoPiecesLeft, b)
    ensures !out.NotImplemented? ==> SamePieces(b, out.board)
    ensures out.Acted? && out.result.TookAction? ==> Legal(b, actor.side, out.result.action)
    ensures out.NotImplemented? <==>
      AllMoves(b, actor.side) != map[] && actor.actorType != Human && actor.actorType != Random
    ensures out.AwaitingClick? ==> actor.actorType == Human
  {
    var moves := AllMoves(b, actor.side);
    if moves == map[] then Acted(NoPiecesLeft, b)
    else
      match actor.actorType
      case Human => HumanChoice(b, actor.side, input.clicks)
      case Random => Acted(TookAction(RandomChoice(b, actor.side, input)), b)
      case _ => NotImplemented
  }

  /**
    The Random policy always decides at once when it has a move: it never
    waits and never fails, and what it returns is legal.
   */
  lemma RandomAlwaysDecides(actor: Actor, b: Board, input: ActorInput)
    requires b.Valid() && actor.actorType == Random
    ensures var out := Act(actor, b, input);
      out.Acted? && out.board == b &&
      (out.result.TookAction? <==> AllMoves(b, actor.side) != map[])
  {
  }

  /** A Human actor whose clicks choose an action takes exactly that action. */
  lemma HumanActsOnChosenClicks(actor: Actor, b: Board, input: ActorInput, a: Action, i: int, j: int)
    requires b.Valid() && actor.actorType == Human && Movable(b, actor.side, a.from)
    requires ChosenBy(b, actor.side, input.clicks, a, i, j)
    ensures Act(actor, b, input).Acted? && Act(actor, b, input).result == TookAction(a)
  {
    assert a.from in AllMoves(b, actor.side);
    HumanChoiceActs(b, actor.side, input.clicks, a, i, j);
  }

  /** A Human actor waiting for a destination shows exactly the selected piece's destinations. */
  lemma HumanWaitsWithDestinationsLit(actor: Actor, b: Board, input: ActorInput, i: int)
    requires b.Valid() && actor.actorType == Human && WaitsOn(b, actor.side, input.clicks, i)
    ensures var out := Act(actor, b, input);
      && out.AwaitingClick?
      && forall p :: b.InBounds(p) ==> (out.board.At(p).highlighted <==> p in AllMoves(b, actor.side)[input.clicks[i]])
  {
    assert input.clicks[i] in AllMoves(b, actor.side);
    HumanChoiceWaitsLit(b, actor.side, input.clicks, i);
  }

  /** Every legal action is what `act` returns for a Random actor under some draws. */
  lemma RandomActReachesEveryLegalAction(actor: Actor, b: Board, a: Action)
    requires b.Valid() && actor.actorType == Random && Legal(b, actor.side, a)
    ensures exists input :: Act(actor, b, input) == Acted(TookAction(a), b)
  {
    RandomReachesEveryLegalAction(b, actor.side, a);
    var input :| RandomChoice(b, actor.side, input) == a;
    assert Act(actor, b, input) == Acted(TookAction(a), b);
  }

  /**
    A Human actor with a move but no click on one of its movable pieces
    keeps waiting, with exactly those pieces highlighted.
   */
  lemma HumanWaitsForAPiece(actor: Actor, b: Board, input: ActorInput)
    requires b.Valid() && actor.actorType == Human && AllMoves(b, actor.side) != map[]
    requires forall k :: 0 <= k < |input.clicks| ==> input.clicks[k] !in AllMoves(b, actor.side)
    ensures var out := Act(actor, b, input);
      && out.AwaitingClick?
      && forall p :: b.InBounds(p) ==> (out.board.At(p).highlighted <==> p in AllMoves(b, actor.side))
  {
    HumanChoiceWaits(b, actor.side, input.clicks);
  }
}

=== FILE: board.dfy ===
/**
  The rules engine: the board, its starting layout, destination generation,
  the per-side move map and move execution (promotion, relocation and the
  capture sweep).

  The movement rule is the one the engine actually implements: a piece may
  land on ANY empty cell of either diagonal through it, at any distance, and
  the cells in between are never looked at. A move removes every hostile
  piece that the capture sweep finds.
 */
module Boards {
  import opened Primitives
  import opened Sides
  import opened Grid

  /** One square: an optional piece and the UI highlight flag. */
  datatype Cell = Cell(piece: Option<Piece>, highlighted: bool)

  /** One turn's move for one piece. */
  datatype Action = Action(from: Point, to: Point)

  /** The grid is stored column-major: `state[x][y]`. */
  datatype Board = Board(width: U8, height: U8, state: seq<seq<Cell>>) {

    /** `width` columns of `height` cells each. */
    predicate Valid()
    {
      |state| == width && forall x :: 0 <= x < |state| ==> |state[x]| == height
    }

    predicate InBounds(p: Point)
    {
      p.x < width && p.y < height
    }

    function At(p: Point): Cell
      requires Valid() && InBounds(p)
    {
      state[p.x][p.y]
    }
  }

  /** Two well-formed boards of the same size holding the same pieces (highlights may differ). */
  ghost predicate SamePieces(b: Board, b': Board)
  {
    && b.Valid() && b'.Valid()
    && b.width == b'.width && b.height == b'.height
    && forall p :: b.InBounds(p) ==> b'.At(p).piece == b.At(p).piece
  }

  /** Two well-formed boards of one size that agree on every cell are the same board. */
  lemma BoardsEqual(b: Board, b': Board)
    requires b.Valid() && b'.Valid() && b.width == b'.width && b.height == b'.height
    requires forall p :: b.InBounds(p) ==> b.At(p) == b'.At(p)
    ensures b == b'
  {
    forall x | 0 <= x < b.width ensures b.state[x] == b'.state[x] {
      forall y | 0 <= y < b.height ensures b.state[x][y] == b'.state[x][y] {
        assert b.At(Point(x, y)) == b'.At(Point(x, y));
      }
    }
  }

  lemma SamePiecesTransitive(b: Board, b': Board, b'': Board)
    requires SamePieces(b, b') && SamePieces(b', b'')
    ensures SamePieces(b, b'')
  {
  }

  /** Every piece stands on a square with `x % 2 == y % 2` (a "dark" square). */
  ghost predicate DarkSquares(b: Board)
    requires b.Valid()
  {
    forall p :: b.InBounds(p) && b.At(p).piece.Some? ==> p.x % 2 == p.y % 2
  }

  // ---------------------------------------------------------------------
  // Starting layout
  // ---------------------------------------------------------------------

  /** What `Board::new` puts at column `x`, row `y` of a board `height` rows tall. */
  function StartingPiece(x: int, y: int, height: int): Option<Piece>
  {
    if x % 2 == y % 2 then
      if y <= 2 then Some(Piece(Red, false))
      else if y >= height - 3 then Some(Piece(Blue, false))
      else None
    else None
  }

  /** `Board::new(width, height)`. */
  function New(width: U8, height: U8): (b: Board)
    ensures b.Valid() && b.width == width && b.height == height
    ensures forall p :: b.InBounds(p) ==> !b.At(p).highlighted
    ensures forall p :: b.InBounds(p) ==>
      (b.At(p).piece.Some? <==> p.x % 2 == p.y % 2 && (p.y <= 2 || p.y >= height - 3))
    ensures forall p :: b.InBounds(p) && b.At(p).piece.Some? ==>
      !b.At(p).piece.value.crowned && (b.At(p).piece.value.side == Red <==> p.y <= 2)
  {
    Board(width, height, seq(width, x => seq(height, y => Cell(StartingPiece(x, y, height), false))))
  }

  /** The starting layout puts every piece on a dark square. */
  lemma NewOnDarkSquares(width: U8, height: U8)
    ensures DarkSquares(New(width, height))
  {
  }

  /** On a board at least six rows tall the two starting zones are three rows each and do not meet. */
  lemma NewZones(width: U8, height: U8, p: Point)
    requires height >= 6
    requires New(width, height).InBounds(p)
    ensures New(width, height).At(p).piece == Some(Piece(Red, false)) <==> p.x % 2 == p.y % 2 && p.y <= 2
    ensures New(width, height).At(p).piece == Some(Piece(Blue, false)) <==> p.x % 2 == p.y % 2 && p.y >= height - 3
  {
  }

  // ---------------------------------------------------------------------
  // Destination generation
  // ---------------------------------------------------------------------

  /**
    The direction test of `valid_moves`: a non-crowned Red piece may not go to
    a smaller `y`, a non-crowned Blue piece may not go to a larger `y`.
   */
  predicate Forward(piece: Piece, origin: Point, p: Point)
  {
    piece.crowned ||
    match piece.side
    case Red => !(origin.y > p.y)
    case Blue => !(origin.y < p.y)
  }

  /** `p` passes every test of `valid_moves` for `piece` standing at `origin`. */
  predicate IsTarget(b: Board, origin: Point, piece: Piece, p: Point)
    requires b.Valid()
  {
    && b.InBounds(p)
    && AbsDiff(origin.x, p.x) == AbsDiff(origin.y, p.y)
    && Forward(piece, origin, p)
    && b.At(p).piece.None?
  }

  /** The cells that pass every destination test for `piece` standing at `origin`. */
  function Targets(b: Board, origin: Point, piece: Piece): (t: set<Point>)
    requires b.Valid()
    ensures forall p :: p in t <==> IsTarget(b, origin, piece, p)
  {
    set p | p in Points(b.width, b.height) && IsTarget(b, origin, piece, p)
  }

  /** `Board::valid_moves(origin, piece)`: filter every board point, x-major then y. */
  function ValidMoves(b: Board, origin: Point, piece: Piece): (r: seq<Point>)
    requires b.Valid()
    ensures forall p :: p in r <==> IsTarget(b, origin, piece, p)
    ensures Ascending(r)
  {
    Select(Points(b.width, b.height), Targets(b, origin, piece))
  }

  /**
    The destination list is fully determined: any list of exactly the targets
    in x-major order is the one `valid_moves` returns.
   */
  lemma ValidMovesInScanOrder(b: Board, origin: Point, piece: Piece, r: seq<Point>)
    requires b.Valid() && Ascending(r)
    requires forall p :: p in r <==> IsTarget(b, origin, piece, p)
    ensures r == ValidMoves(b, origin, piece)
  {
    AscendingUnique(r, ValidMoves(b, origin, piece));
  }

  /** Each destination is listed once. */
  lemma ValidMovesDistinct(b: Board, origin: Point, piece: Piece)
    requires b.Valid()
    ensures forall i, j :: 0 <= i < j < |ValidMoves(b, origin, piece)| ==>
      ValidMoves(b, origin, piece)[i] != ValidMoves(b, origin, piece)[j]
  {
    var r := ValidMoves(b, origin, piece);
    forall i, j | 0 <= i < j < |r| ensures r[i] != r[j] {
      assert Before(r[i], r[j]);
    }
  }

  /** A non-crowned piece never moves backwards; a crowned one may move either way. */
  lemma ValidMovesDirection(b: Board, origin: Point, piece: Piece)
    requires b.Valid()
    ensures !piece.crowned && piece.side == Red ==>
      forall p :: p in ValidMoves(b, origin, piece) ==> p.y >= origin.y
    ensures !piece.crowned && piece.side == Blue ==>
      forall p :: p in ValidMoves(b, origin, piece) ==> p.y <= origin.y
    ensures piece.crowned ==> forall p :: p in ValidMoves(b, origin, piece) <==>
      b.InBounds(p) && AbsDiff(origin.x, p.x) == AbsDiff(origin.y, p.y) && b.At(p).piece.None?
  {
  }

  /**
    Only the target cell itself is consulted: two boards of the same size that
    agree on whether `p` is empty agree on whether `p` is a destination,
    whatever lies between `origin` and `p`.
   */
  lemma ValidMovesPathBlind(b: Board, b': Board, origin: Point, piece: Piece, p: Point)
    requires b.Valid() && b'.Valid()
    requires b.width == b'.width && b.height == b'.height
    requires b.InBounds(p) ==> (b.At(p).piece.None? <==> b'.At(p).piece.None?)
    ensures p in ValidMoves(b, origin, piece) <==> p in ValidMoves(b', origin, piece)
  {
  }

  /** Highlights never influence destination generation. */
  lemma ValidMovesIgnoreHighlights(b: Board, b': Board, origin: Point, piece: Piece)
    requires SamePieces(b, b')
    ensures ValidMoves(b, origin, piece) == ValidMoves(b', origin, piece)
  {
    assert Targets(b, origin, piece) == Targets(b', origin, piece);
  }

  // ---------------------------------------------------------------------
  // The per-side move map
  // ---------------------------------------------------------------------

  /** Cell `p` holds a piece friendly to `side` that has at least one destination. */
  predicate Movable(b: Board, side: Side, p: Point)
    requires b.Valid()
  {
    && b.InBounds(p)
    && IsFriendly(side, b.At(p).piece)
    && |ValidMoves(b, p, b.At(p).piece.value)| > 0
  }

  /** `Board::get_all_moves(side)`. */
  function AllMoves(b: Board, side: Side): (m: map<Point, seq<Point>>)
    requires b.Valid()
    ensures forall p :: p in m <==> Movable(b, side, p)
    ensures forall p :: Movable(b, side, p) ==> m[p] == ValidMoves(b, p, b.At(p).piece.value)
  {
    map p | p in Points(b.width, b.height) && Movable(b, side, p) :: ValidMoves(b, p, b.At(p).piece.value)
  }

  /** A legal action for `side`: its origin is a key of the move map and its target is listed there. */
  predicate Legal(b: Board, side: Side, a: Action)
    requires b.Valid()
  {
    a.from in AllMoves(b, side) && a.to in AllMoves(b, side)[a.from]
  }

  /**
    The move map is exactly the set of (origin, target) pairs where a friendly
    piece stands at the origin and the target passes every destination test.
   */
  lemma AllMovesCharacterization(b: Board, side: Side, a: Action)
    requires b.Valid()
    ensures Legal(b, side, a) <==>
      && b.InBounds(a.from)
      && IsFriendly(side, b.At(a.from).piece)
      && IsTarget(b, a.from, b.At(a.from).piece.value, a.to)
  {
  }

  /** The two sides' move maps never share an origin. */
  lemma AllMovesDisjoint(b: Board)
    requires b.Valid()
    ensures AllMoves(b, Red).Keys !! AllMoves(b, Blue).Keys
  {
  }

  /** Only pieces matter to the move map; highlights do not. */
  lemma AllMovesIgnoreHighlights(b: Board, b': Board, side: Side)
    requires SamePieces(b, b')
    ensures AllMoves(b, side) == AllMoves(b', side)
  {
    var m, m' := AllMoves(b, side), AllMoves(b', side);
    forall p ensures (p in m <==> p in m') && (p in m ==> m[p] == m'[p]) {
      MovableIgnoresHighlights(b, b', side, p);
    }
  }

  /** Whether a cell can move, and where to, does not depend on highlights. */
  lemma MovableIgnoresHighlights(b: Board, b': Board, side: Side, p: Point)
    requires SamePieces(b, b')
    ensures Movable(b, side, p) == Movable(b', side, p)
    ensures Movable(b, side, p) ==>
      ValidMoves(b, p, b.At(p).piece.value) == ValidMoves(b', p, b'.At(p).piece.value)
  {
    if b.InBounds(p) && b.At(p).piece.Some? {
      ValidMovesIgnoreHighlights(b, b', p, b.At(p).piece.value);
    }
  }

  /** A legal action moves a piece along a diagonal onto an empty cell, never onto itself. */
  lemma LegalIsDiagonal(b: Board, side: Side, a: Action)
    requires b.Valid() && Legal(b, side, a)
    ensures b.InBounds(a.from) && b.InBounds(a.to)
    ensures b.At(a.from).piece.Some? && b.At(a.from).piece.value.side == side
    ensures b.At(a.to).piece.None? && a.from != a.to
    ensures AbsDiff(a.from.x, a.to.x) == AbsDiff(a.from.y, a.to.y)
  {
    AllMovesCharacterization(b, side, a);
  }

  // ---------------------------------------------------------------------
  // Move execution
  // ---------------------------------------------------------------------

  /** The promotion rule of `do_action`. */
  function Crown(piece: Piece, to: Point, height: U8): (r: bool)
    ensures piece.crowned ==> r
    ensures !piece.crowned && piece.side == Red ==> (r <==> to.y == height - 1)
    ensures !piece.crowned && piece.side == Blue ==> (r <==> to.y == 0)
  {
    if piece.crowned then true
    else if (piece.side == Red && to.y == height - 1) || (piece.side == Blue && to.y == 0) then true
    else false
  }

  /** Replace the piece at `p`, keeping its highlight flag. */
  function SetPiece(b: Board, p: Point, piece: Option<Piece>): (r: Board)
    requires b.Valid() && b.InBounds(p)
    ensures r.Valid() && r.width == b.width && r.height == b.height
    ensures forall q :: r.InBounds(q) ==> r.At(q) == if q == p then b.At(q).(piece := piece) else b.At(q)
  {
    b.(state := b.state[p.x := b.state[p.x][p.y := b.At(p).(piece := piece)]])
  }

  function Min(a: int, b: int): int { if a > b then b else a }
  function Max(a: int, b: int): int { if a > b then a else b }

  /**
    The cells the capture sweep of `do_action` examines: the half-open
    rectangle `[min x, max x) x [min y, max y)` spanned by the move, filtered
    by `from.x.abs_diff(x) == from.y.abs_diff(y)`.
   */
  predicate InSweep(a: Action, p: Point)
  {
    && Min(a.from.x, a.to.x) <= p.x < Max(a.from.x, a.to.x)
    && Min(a.from.y, a.to.y) <= p.y < Max(a.from.y, a.to.y)
    && AbsDiff(a.from.x, p.x) == AbsDiff(a.from.y, p.y)
  }

  /** The capture sweep: every swept cell holding a piece hostile to `side` is emptied. */
  function Sweep(b: Board, side: Side, a: Action): (r: Board)
    requires b.Valid()
    ensures r.Valid() && r.width == b.width && r.height == b.height
    ensures forall p :: r.InBounds(p) ==>
      r.At(p) == if InSweep(a, p) && IsHostile(side, b.At(p).piece) then b.At(p).(piece := None) else b.At(p)
  {
    b.(state := seq(|b.state|, x requires 0 <= x < |b.state| =>
      seq(|b.state[x]|, y requires 0 <= y < |b.state[x]| =>
        var c := b.state[x][y];
        if InSweep(a, Point(x, y)) && IsHostile(side, c.piece) then c.(piece := None) else c)))
  }

  /** `Board::do_action(action)`: promote, relocate, then sweep for captures. */
  function DoAction(b: Board, a: Action): (r: Board)
    requires b.Valid() && b.InBounds(a.from) && b.InBounds(a.to) && b.At(a.from).piece.Some?
    ensures r.Valid() && r.width == b.width && r.height == b.height
    ensures var mover := b.At(a.from).piece.value;
      r.At(a.to).piece == Some(Piece(mover.side,
        mover.crowned || (mover.side == Red && a.to.y == b.height - 1) || (mover.side == Blue && a.to.y == 0)))
    ensures a.from != a.to ==> r.At(a.from).piece.None?
    ensures forall p :: r.InBounds(p) && p != a.from && p != a.to ==>
      r.At(p).piece == if InSweep(a, p) && IsHostile(b.At(a.from).piece.value.side, b.At(p).piece)
                       then None else b.At(p).piece
    ensures forall p :: r.InBounds(p) ==> r.At(p).highlighted == b.At(p).highlighted
  {
    var mover := b.At(a.from).piece.value;
    var moved := Piece(mover.side, Crown(mover, a.to, b.height));
    var b1 := SetPiece(SetPiece(b, a.from, None), a.to, Some(moved));
    Sweep(b1, mover.side, a)
  }

  /** Highlights never influence what a move does to the pieces. */
  lemma DoActionIgnoresHighlights(b: Board, b': Board, a: Action)
    requires SamePieces(b, b')
    requires b.InBounds(a.from) && b.InBounds(a.to) && b.At(a.from).piece.Some?
    ensures SamePieces(DoAction(b, a), DoAction(b', a))
  {
  }

  /** The dark-square invariant depends on the pieces only. */
  lemma DarkSquaresSamePieces(b: Board, b': Board)
    requires SamePieces(b, b') && DarkSquares(b)
    ensures DarkSquares(b')
  {
  }

  /** Moving one step towards `t` from `f`, `k` times. */
  function Toward(f: int, t: int, k: int): int
  {
    if t >= f then f + k else f - k
  }

  /** `p` lies on the diagonal segment from `a.from` to `a.to`, strictly between the two. */
  predicate Between(a: Action, p: Point)
  {
    var k := AbsDiff(a.from.x, p.x);
    && 0 < k < AbsDiff(a.from.x, a.to.x)
    && p.x == Toward(a.from.x, a.to.x, k)
    && p.y == Toward(a.from.y, a.to.y, k)
  }

  /**
    For a diagonal move the half-open sweep, less the two end cells, is exactly
    the set of cells strictly between origin and destination.
   */
  lemma DiagonalSweep(a: Action, p: Point)
    requires AbsDiff(a.from.x, a.to.x) == AbsDiff(a.from.y, a.to.y)
    ensures (InSweep(a, p) && p != a.from && p != a.to) <==> Between(a, p)
  {
  }

  /**
    A diagonal move empties every hostile piece strictly between origin and
    destination and touches nothing else except the two end cells.
   */
  lemma DiagonalMoveCaptures(b: Board, a: Action)
    requires b.Valid() && b.InBounds(a.from) && b.InBounds(a.to) && b.At(a.from).piece.Some?
    requires AbsDiff(a.from.x, a.to.x) == AbsDiff(a.from.y, a.to.y)
    ensures forall p :: b.InBounds(p) && p != a.from && p != a.to ==>
      DoAction(b, a).At(p).piece ==
        if Between(a, p) && IsHostile(b.At(a.from).piece.value.side, b.At(p).piece) then None else b.At(p).piece
  {
    forall p | b.InBounds(p) && p != a.from && p != a.to
      ensures DoAction(b, a).At(p).piece ==
        if Between(a, p) && IsHostile(b.At(a.from).piece.value.side, b.At(p).piece) then None else b.At(p).piece
    {
      DiagonalSweep(a, p);
    }
  }

  /**
    A move never creates an opposing piece and never disturbs a friendly one
    other than the mover: opponents only disappear.
   */
  lemma CaptureOnlyRemovesOpponents(b: Board, a: Action)
    requires b.Valid() && b.InBounds(a.from) && b.InBounds(a.to) && b.At(a.from).piece.Some?
    ensures var side := b.At(a.from).piece.value.side;
      forall p :: b.InBounds(p) && IsFriendly(Opponent(side), DoAction(b, a).At(p).piece) ==>
        DoAction(b, a).At(p).piece == b.At(p).piece
    ensures var side := b.At(a.from).piece.value.side;
      forall p :: b.InBounds(p) && p != a.from && p != a.to && IsFriendly(side, b.At(p).piece) ==>
        DoAction(b, a).At(p).piece == b.At(p).piece
  {
  }

  /**
    A jump over one opposing piece: a non-crowned Red piece at (2, 2) may land
    on an empty (4, 4) beyond a Blue piece at (3, 3); the move removes the Blue
    piece, and the mover is crowned exactly when row 4 is Red's far edge.
   */
  lemma JumpCaptures(b: Board)
    requires b.Valid() && b.width >= 5 && b.height >= 5
    requires b.At(Point(2, 2)).piece == Some(Piece(Red, false))
    requires b.At(Point(3, 3)).piece.Some? && b.At(Point(3, 3)).piece.value.side == Blue
    requires b.At(Point(4, 4)).piece.None?
    ensures Point(4, 4) in ValidMoves(b, Point(2, 2), Piece(Red, false))
    ensures var r := DoAction(b, Action(Point(2, 2), Point(4, 4)));
      && r.At(Point(2, 2)).piece.None?
      && r.At(Point(3, 3)).piece.None?
      && r.At(Point(4, 4)).piece == Some(Piece(Red, b.height == 5))
  {
    assert IsTarget(b, Point(2, 2), Piece(Red, false), Point(4, 4));
    assert InSweep(Action(Point(2, 2), Point(4, 4)), Point(3, 3));
  }

  /** A diagonal move keeps every piece on a dark square. */
  lemma DoActionKeepsDarkSquares(b: Board, a: Action)
    requires b.Valid() && b.InBounds(a.from) && b.InBounds(a.to) && b.At(a.from).piece.Some?
    requires AbsDiff(a.from.x, a.to.x) == AbsDiff(a.from.y, a.to.y)
    requires DarkSquares(b)
    ensures DarkSquares(DoAction(b, a))
  {
    var r := DoAction(b, a);
    assert a.from.x % 2 == a.from.y % 2;
    DiagonalKeepsParity(a.from, a.to);
    forall p | r.InBounds(p) && r.At(p).piece.Some? ensures p.x % 2 == p.y % 2 {
      if p != a.to {
        assert b.At(p).piece.Some?;
      }
    }
  }

  /** A diagonal step of any length keeps the colour of the square. */
  lemma DiagonalKeepsParity(f: Point, t: Point)
    requires AbsDiff(f.x, t.x) == AbsDiff(f.y, t.y) && f.x % 2 == f.y % 2
    ensures t.x % 2 == t.y % 2
  {
    var d: int := AbsDiff(f.x, t.x);
    var dx: int := t.x - f.x;
    var dy: int := t.y - f.y;
    assert dx == d || dx == -d;
    assert dy == d || dy == -d;
    assert (dx - dy) % 2 == 0;
  }
}

=== FILE: board_methods.dfy ===
/**
  Loop-by-loop renderings of `Board::new` and `Board::do_action`, written the
  way the engine writes them (nested counting loops, updating the board in
  place), each proved to compute the same board as the functional
  definition in `Boards`.
 */
module BoardMethods {
  import opened Primitives
  import opened Sides
  import opened Boards

  /** `Board::new`: push `width` columns, each of `height` cells. */
  method NewInPlace(width: U8, height: U8) returns (b: Board)
    ensures b == New(width, height)
  {
    var state: seq<seq<Cell>> := [];
    var x: int := 0;
    while x < width
      invariant 0 <= x <= width
      invariant |state| == x
      invariant forall i :: 0 <= i < x ==> |state[i]| == height
      invariant forall i, j :: 0 <= i < x && 0 <= j < height ==>
        state[i][j] == Cell(StartingPiece(i, j, height), false)
    {
      var column: seq<Cell> := [];
      var y: int := 0;
      while y < height
        invariant 0 <= y <= height
        invariant |column| == y
        invariant forall j :: 0 <= j < y ==> column[j] == Cell(StartingPiece(x, j, height), false)
      {
        var piece: Option<Piece>;
        if x % 2 == y % 2 {
          if y <= 2 {
            piece := Some(Piece(Red, false));
          } else if y >= height - 3 {
            piece := Some(Piece(Blue, false));
          } else {
            piece := None;
          }
        } else {
          piece := None;
        }
        column := column + [Cell(piece, false)];
        y := y + 1;
      }
      state := state + [column];
      x := x + 1;
    }
    b := Board(width, height, state);
    BoardsEqual(b, New(width, height));
  }

  /**
    `Board::do_action`: crown, move, then sweep the half-open rectangle cell by
    cell, reading the board as it is being updated.
   */
  method DoActionInPlace(b: Board, a: Action) returns (r: Board)
    requires b.Valid() && b.InBounds(a.from) && b.InBounds(a.to) && b.At(a.from).piece.Some?
    ensures r == DoAction(b, a)
  {
    var mover := b.At(a.from).piece.value;
    var moved := MovePiece(b, a);
    BoardsEqual(moved, SetPiece(SetPiece(b, a.from, None), a.to, Some(Piece(mover.side, Crown(mover, a.to, b.height)))));
    r := SweepInPlace(moved, mover.side, a);
  }

  /**
    The first half of `do_action`: decide the promotion, empty `from`, place
    the piece at `to`. Nothing else changes, highlights included.
   */
  method MovePiece(b: Board, a: Action) returns (r: Board)
    requires b.Valid() && b.InBounds(a.from) && b.InBounds(a.to) && b.At(a.from).piece.Some?
    ensures r.Valid() && r.width == b.width && r.height == b.height
    ensures var mover := b.At(a.from).piece.value;
      r.At(a.to).piece == Some(Piece(mover.side,
        mover.crowned || (mover.side == Red && a.to.y == b.height - 1) || (mover.side == Blue && a.to.y == 0)))
    ensures a.from != a.to ==> r.At(a.from).piece.None?
    ensures forall p :: b.InBounds(p) && p != a.from && p != a.to ==> r.At(p) == b.At(p)
    ensures forall p :: b.InBounds(p) ==> r.At(p).highlighted == b.At(p).highlighted
  {
    var mover := b.At(a.from).piece.value;
    var crowned: bool;
    if mover.crowned {
      crowned := true;
    } else if (mover.side == Red && a.to.y == b.height - 1) || (mover.side == Blue && a.to.y == 0) {
      crowned := true;
    } else {
      crowned := false;
    }
    r := SetPiece(b, a.from, None);
    r := SetPiece(r, a.to, Some(Piece(mover.side, crowned)));
  }

  /** The capture sweep of `do_action`: the outer `for x in smaller_x..bigger_x` loop. */
  method SweepInPlace(moved: Board, side: Side, a: Action) returns (r: Board)
    requires moved.Valid() && moved.InBounds(a.from) && moved.InBounds(a.to)
    ensures r == Sweep(moved, side, a)
  {
    ghost var swept := Sweep(moved, side, a);
    var biggerX, smallerX, biggerY, smallerY: U8;
    if a.from.x > a.to.x {
      biggerX, smallerX := a.from.x, a.to.x;
    } else {
      biggerX, smallerX := a.to.x, a.from.x;
    }
    if a.from.y > a.to.y {
      biggerY, smallerY := a.from.y, a.to.y;
    } else {
      biggerY, smallerY := a.to.y, a.from.y;
    }

    r := moved;
    var x := smallerX;
    while x < biggerX
      invariant smallerX <= x <= biggerX
      invariant r.Valid() && r.width == moved.width && r.height == moved.height
      invariant forall p :: r.InBounds(p) ==> r.At(p) == if p.x < x then swept.At(p) else moved.At(p)
    {
      r := SweepColumn(r, moved, side, a, x, smallerY, biggerY);
      x := x + 1;
    }
    BoardsEqual(r, swept);
  }

  /** One pass of the inner `for y in smaller_y..bigger_y` loop of the capture sweep, at column `x`. */
  method SweepColumn(r: Board, ghost moved: Board, side: Side, a: Action, x: U8, smallerY: U8, biggerY: U8)
    returns (r': Board)
    requires moved.Valid() && r.Valid() && r.width == moved.width && r.height == moved.height
    requires moved.InBounds(a.from) && moved.InBounds(a.to)
    requires Min(a.from.x, a.to.x) <= x < Max(a.from.x, a.to.x)
    requires smallerY == Min(a.from.y, a.to.y) && biggerY == Max(a.from.y, a.to.y)
    requires forall p :: r.InBounds(p) ==>
      r.At(p) == if p.x < x then Sweep(moved, side, a).At(p) else moved.At(p)
    ensures r'.Valid() && r'.width == r.width && r'.height == r.height
    ensures forall p :: r'.InBounds(p) ==>
      r'.At(p) == if p.x <= x then Sweep(moved, side, a).At(p) else moved.At(p)
  {
    r' := r;
    var y := smallerY;
    while y < biggerY
      invariant smallerY <= y <= biggerY
      invariant r'.Valid() && r'.width == r.width && r'.height == r.height
      invariant forall p :: r'.InBounds(p) ==>
        r'.At(p) == if p.x < x || (p.x == x && p.y < y) then Sweep(moved, side, a).At(p) else moved.At(p)
    {
      r' := SweepCell(r', moved, side, a, x, y);
      y := y + 1;
    }
  }

  /** The body of the inner sweep loop: examine cell `(x, y)` and empty it if it is swept and hostile. */
  method SweepCell(r: Board, ghost moved: Board, side: Side, a: Action, x: U8, y: U8) returns (r': Board)
    requires moved.Valid() && r.Valid() && r.width == moved.width && r.height == moved.height
    requires Min(a.from.x, a.to.x) <= x < Max(a.from.x, a.to.x)
    requires Min(a.from.y, a.to.y) <= y < Max(a.from.y, a.to.y)
    requires x < moved.width && y < moved.height
    requires forall p :: r.InBounds(p) ==>
      r.At(p) == if p.x < x || (p.x == x && p.y < y) then Sweep(moved, side, a).At(p) else moved.At(p)
    ensures r'.Valid() && r'.width == r.width && r'.height == r.height
    ensures forall p :: r'.InBounds(p) ==>
      r'.At(p) == if p.x < x || (p.x == x && p.y <= y) then Sweep(moved, side, a).At(p) else moved.At(p)
  {
    ghost var swept := Sweep(moved, side, a);
    var here := Point(x, y);
    assert r.InBounds(here) && r.At(here) == moved.At(here);
    if AbsDiff(a.from.x, x) == AbsDiff(a.from.y, y) && IsHostile(side, r.state[x][y].piece) {
      r' := SetPiece(r, here, None);
    } else {
      r' := r;
    }
    assert r'.At(here) == swept.At(here);
    forall p | r'.InBounds(p)
      ensures r'.At(p) == if p.x < x || (p.x == x && p.y <= y) then swept.At(p) else moved.At(p)
    {
      if p != here {
        assert r'.At(p) == r.At(p);
      }
    }
  }
}

=== FILE: game.dfy ===
/**
  The turn loop of `Game::play`, as a state machine driven by a finite
  sequence of ticks. One tick is one iteration of the loop: it carries the
  value of the exit flag at that iteration and the inputs each actor would
  consume if asked to act.

  Quirks of the loop that the model keeps: Red always acts first and Blue
  acts only after Red took an action; the `moves` counter is declared afresh
  at the top of every iteration, so a recorded result says 0 moves when Red
  lost and 1 move when Blue lost; without a terminal the loop returns on the
  iteration after a winner is recorded, with a terminal it idles until the
  exit flag is raised.
 */
module Games {
  import opened Primitives
  import opened Sides
  import opened Boards
  import opened Actors

  datatype GameResult = GameResult(moves: nat, winner: Side)

  /** A game: its board and whether a terminal is attached. */
  datatype Game = Game(board: Board, terminal: bool)

  /** One iteration's worth of outside input. */
  datatype Tick = Tick(exitRequested: bool, red: ActorInput, blue: ActorInput)

  datatype PlayOutcome =
    | Unsupported                                       // a Human actor on a game without a terminal
    | Returned(winner: Option<GameResult>, board: Board)
    | Blocked(board: Board)                             // a Human actor is waiting for a click
    | Panicked                                          // an actor reached `todo!()`
    | Unfinished(winner: Option<GameResult>, board: Board) // the ticks ran out while the loop was still running

  datatype RoundOutcome =
    | Played(board: Board, winner: Option<GameResult>)
    | RoundBlocked(board: Board)
    | RoundPanicked

  /** The only results the loop can ever record. */
  predicate RecordedShape(winner: Option<GameResult>)
  {
    winner.None? || winner.value == GameResult(0, Blue) || winner.value == GameResult(1, Red)
  }

  /**
    The second half of the loop body: Blue acts on the board as Red's move
    left it; `NoPiecesLeft` records Red as winner with the iteration's
    counter, which Red's move has brought to 1.
   */
  function BlueTurn(blue: Actor, b: Board, input: ActorInput, moves: nat): (r: RoundOutcome)
    requires b.Valid() && blue.side == Blue
    ensures !r.RoundPanicked? ==> r.board.Valid() && r.board.width == b.width && r.board.height == b.height
    ensures r.Played? ==> r.winner == Some(GameResult(moves, Red)) || r.winner.None?
    ensures (r.Played? && r.winner.Some?) <==> AllMoves(b, Blue) == map[]
    ensures r.Played? && r.winner.None? ==> exists a :: Legal(b, Blue, a) && SamePieces(DoAction(b, a), r.board)
  {
    var o := Act(blue, b, input);
    if o.NotImplemented? then RoundPanicked
    else if o.AwaitingClick? then RoundBlocked(o.board)
    else if o.result.NoPiecesLeft? then Played(o.board, Some(GameResult(moves, Red)))
    else
      var a := o.result.action;
      LegalIsDiagonal(b, Blue, a);
      DoActionIgnoresHighlights(b, o.board, a);
      Played(DoAction(o.board, a), None)
  }

  /**
    The body of the loop when no winner is known yet: Red acts first; on
    `NoPiecesLeft` Blue is recorded as winner with the counter still at 0 and
    Blue does not act; otherwise Red's action is applied and Blue takes its
    turn.
   */
  function Round(red: Actor, blue: Actor, b: Board, tick: Tick): (r: RoundOutcome)
    requires b.Valid() && red.side == Red && blue.side == Blue
    ensures !r.RoundPanicked? ==> r.board.Valid() && r.board.width == b.width && r.board.height == b.height
    ensures r.Played? ==> RecordedShape(r.winner)
  {
    var moves := 0;
    var o := Act(red, b, tick.red);
    if o.NotImplemented? then RoundPanicked
    else if o.AwaitingClick? then RoundBlocked(o.board)
    else if o.result.NoPiecesLeft? then Played(o.board, Some(GameResult(moves, Blue)))
    else
      var a := o.result.action;
      LegalIsDiagonal(b, Red, a);
      var moves := moves + 1;
      BlueTurn(blue, DoAction(o.board, a), tick.blue, moves)
  }

  /**
    Blue is recorded as winner, with 0 moves, exactly when Red has no move at
    the start of the iteration; Red's `NoPiecesLeft` leaves the board as it was.
   */
  lemma RoundBlueWins(red: Actor, blue: Actor, b: Board, tick: Tick)
    requires b.Valid() && red.side == Red && blue.side == Blue
    ensures var r := Round(red, blue, b, tick);
      (r.Played? && r.winner == Some(GameResult(0, Blue))) <==> AllMoves(b, Red) == map[]
    ensures AllMoves(b, Red) == map[] ==> Round(red, blue, b, tick) == Played(b, Some(GameResult(0, Blue)))
  {
    var o := Act(red, b, tick.red);
    if o.Acted? && o.result.TookAction? {
      assert AllMoves(b, Red) != map[];
      var a := o.result.action;
      LegalIsDiagonal(b, Red, a);
      assert Round(red, blue, b, tick) == BlueTurn(blue, DoAction(o.board, a), tick.blue, 1);
    }
  }

  /**
    Blue acts only after Red took a legal action, and on the pieces as that
    action left them: Red is recorded as winner exactly when Red moved and
    Blue then had no move.
   */
  lemma RoundRedWins(red: Actor, blue: Actor, b: Board, tick: Tick)
    requires b.Valid() && red.side == Red && blue.side == Blue
    ensures var o := Act(red, b, tick.red);
      var r := Round(red, blue, b, tick);
      (r.Played? && r.winner == Some(GameResult(1, Red))) <==>
        o.Acted? && o.result.TookAction? && AllMoves(DoAction(b, o.result.action), Blue) == map[]
  {
    var o := Act(red, b, tick.red);
    if o.Acted? && o.result.TookAction? {
      var a := o.result.action;
      LegalIsDiagonal(b, Red, a);
      DoActionIgnoresHighlights(b, o.board, a);
      AllMovesIgnoreHighlights(DoAction(b, a), DoAction(o.board, a), Blue);
      assert Round(red, blue, b, tick) == BlueTurn(blue, DoAction(o.board, a), tick.blue, 1);
    }
  }

  /** A round that records no winner applies one legal Red move, then one legal Blue move. */
  lemma RoundBothMove(red: Actor, blue: Actor, b: Board, tick: Tick)
    requires b.Valid() && red.side == Red && blue.side == Blue
    ensures var o := Act(red, b, tick.red);
      var r := Round(red, blue, b, tick);
      r.Played? && r.winner.None? ==>
        && o.Acted? && o.result.TookAction?
        && exists a :: Legal(DoAction(b, o.result.action), Blue, a) &&
             SamePieces(DoAction(DoAction(b, o.result.action), a), r.board)
  {
    var o := Act(red, b, tick.red);
    var r := Round(red, blue, b, tick);
    if r.Played? && r.winner.None? {
      var a := o.result.action;
      LegalIsDiagonal(b, Red, a);
      var after := DoAction(b, a);
      var after' := DoAction(o.board, a);
      DoActionIgnoresHighlights(b, o.board, a);
      assert r == BlueTurn(blue, after', tick.blue, 1);
      var a2 :| Legal(after', Blue, a2) && SamePieces(DoAction(after', a2), r.board);
      AllMovesIgnoreHighlights(after, after', Blue);
      LegalIsDiagonal(after', Blue, a2);
      DoActionIgnoresHighlights(after, after', a2);
      SamePiecesTransitive(DoAction(after, a2), DoAction(after', a2), r.board);
    }
  }

  /** One iteration after another, until the loop returns or the ticks run out. */
  function PlayLoop(terminal: bool, red: Actor, blue: Actor, b: Board, winner: Option<GameResult>, ticks: seq<Tick>)
    : (out: PlayOutcome)
    requires b.Valid() && red.side == Red && blue.side == Blue
    ensures !out.Unsupported?
    ensures RecordedShape(winner) && (out.Returned? || out.Unfinished?) ==> RecordedShape(out.winner)
    ensures winner.Some? && (out.Returned? || out.Unfinished?) ==> out.winner == winner
    ensures !terminal && out.Returned? ==> out.winner.Some?
    ensures !terminal && winner.Some? && |ticks| > 0 ==> out == Returned(winner, b)
    ensures terminal && winner.Some? ==> out == Returned(winner, b) || out == Unfinished(winner, b)
    ensures terminal && out.Returned? ==> exists i :: 0 <= i < |ticks| && ticks[i].exitRequested
    ensures terminal && |ticks| > 0 && ticks[0].exitRequested ==> out == Returned(winner, b)
    ensures terminal && winner.Some? ==> (out.Returned? <==> exists i :: 0 <= i < |ticks| && ticks[i].exitRequested)
    ensures (out.Returned? || out.Unfinished? || out.Blocked?) ==>
      out.board.Valid() && out.board.width == b.width && out.board.height == b.height
    decreases |ticks|
  {
    if ticks == [] then Unfinished(winner, b)
    else
      var tick := ticks[0];
      if terminal && tick.exitRequested then Returned(winner, b)
      else if !terminal && winner.Some? then Returned(winner, b)
      else if winner.Some? then
        var out := PlayLoop(terminal, red, blue, b, winner, ticks[1..]);
        assert out.Returned? ==> exists i :: 0 <= i < |ticks| && ticks[i].exitRequested by {
          if out.Returned? {
            var i :| 0 <= i < |ticks[1..]| && ticks[1..][i].exitRequested;
            assert ticks[i + 1].exitRequested;
          }
        }
        assert (exists i :: 0 <= i < |ticks| && ticks[i].exitRequested) ==> out.Returned? by {
          if i :| 0 <= i < |ticks| && ticks[i].exitRequested {
            assert i > 0 && ticks[1..][i - 1].exitRequested;
          }
        }
        out
      else
        match Round(red, blue, b, tick)
        case RoundPanicked => Panicked
        case RoundBlocked(b1) => Blocked(b1)
        case Played(b1, w) =>
          var out := PlayLoop(terminal, red, blue, b1, w, ticks[1..]);
          assert terminal && out.Returned? ==> exists i :: 0 <= i < |ticks| && ticks[i].exitRequested by {
            if terminal && out.Returned? {
              var i :| 0 <= i < |ticks[1..]| && ticks[1..][i].exitRequested;
              assert ticks[i + 1].exitRequested;
            }
          }
          out
  }

  /**
    `Game::play(red, blue)`: refuse a Human actor when no terminal is
    attached, before any actor acts; otherwise run the loop from "no winner".
   */
  function Play(g: Game, redType: ActorType, blueType: ActorType, ticks: seq<Tick>): (out: PlayOutcome)
    requires g.board.Valid()
    ensures out.Unsupported? <==> !g.terminal && (redType == Human || blueType == Human)
    ensures (out.Returned? || out.Unfinished?) ==> RecordedShape(out.winner)
    ensures !g.terminal && out.Returned? ==>
      out.winner == Some(GameResult(0, Blue)) || out.winner == Some(GameResult(1, Red))
  {
    if !g.terminal && (redType == Human || blueType == Human) then Unsupported
    else PlayLoop(g.terminal, Actor(redType, Red), Actor(blueType, Blue), g.board, None, ticks)
  }

  // ---------------------------------------------------------------------
  // Properties of whole games
  // ---------------------------------------------------------------------

  /**
    With a terminal and a winner recorded, an iteration whose exit flag is
    clear does nothing: the loop just goes on to the next tick.
   */
  lemma PlayLoopIdles(red: Actor, blue: Actor, b: Board, winner: Option<GameResult>, ticks: seq<Tick>)
    requires b.Valid() && red.side == Red && blue.side == Blue
    requires winner.Some? && ticks != [] && !ticks[0].exitRequested
    ensures PlayLoop(true, red, blue, b, winner, ticks) == PlayLoop(true, red, blue, b, winner, ticks[1..])
  {
  }

  /**
    An iteration with no winner recorded and no exit requested runs the loop
    body `Round` on the current board: its outcome is what one tick of the
    loop produces.
   */
  lemma PlayLoopRound(terminal: bool, red: Actor, blue: Actor, b: Board, ticks: seq<Tick>)
    requires b.Valid() && red.side == Red && blue.side == Blue
    requires ticks != [] && !(terminal && ticks[0].exitRequested)
    ensures var first := PlayLoop(terminal, red, blue, b, None, ticks[..1]);
      match Round(red, blue, b, ticks[0])
      case Played(b1, w) => first == Unfinished(w, b1)
      case RoundBlocked(b1) => first == Blocked(b1)
      case RoundPanicked => first == Panicked
  {
    assert ticks[..1][0] == ticks[0] && ticks[..1][1..] == [];
  }

  /**
    One iteration of the loop without a winner, in terms of the two actors:
    Blue is recorded exactly when Red has no move (board untouched); Red is
    recorded exactly when Red moved and Blue then had none; an iteration
    that records nothing applies one legal Red move and then one legal Blue
    move on the board that move left.
   */
  lemma PlayLoopIteration(terminal: bool, red: Actor, blue: Actor, b: Board, ticks: seq<Tick>)
    requires b.Valid() && red.side == Red && blue.side == Blue
    requires ticks != [] && !(terminal && ticks[0].exitRequested)
    ensures var first := PlayLoop(terminal, red, blue, b, None, ticks[..1]);
      (first.Unfinished? && first.winner == Some(GameResult(0, Blue))) <==> AllMoves(b, Red) == map[]
    ensures AllMoves(b, Red) == map[] ==>
      PlayLoop(terminal, red, blue, b, None, ticks[..1]) == Unfinished(Some(GameResult(0, Blue)), b)
    ensures var first := PlayLoop(terminal, red, blue, b, None, ticks[..1]);
      var o := Act(red, b, ticks[0].red);
      (first.Unfinished? && first.winner == Some(GameResult(1, Red))) <==>
        o.Acted? && o.result.TookAction? && AllMoves(DoAction(b, o.result.action), Blue) == map[]
    ensures var first := PlayLoop(terminal, red, blue, b, None, ticks[..1]);
      var o := Act(red, b, ticks[0].red);
      first.Unfinished? && first.winner.None? ==>
        && o.Acted? && o.result.TookAction?
        && exists a :: Legal(DoAction(b, o.result.action), Blue, a) &&
             SamePieces(DoAction(DoAction(b, o.result.action), a), first.board)
  {
    PlayLoopRound(terminal, red, blue, b, ticks);
    RoundBlueWins(red, blue, b, ticks[0]);
    RoundRedWins(red, blue, b, ticks[0]);
    RoundBothMove(red, blue, b, ticks[0]);
  }

  /**
    The loop consumes ticks one iteration at a time: running the first `n`
    ticks and then the rest from where that left off is the same as running
    them all at once. Together with the exit clauses of `PlayLoop`, the loop
    returns exactly at the iteration whose tick it is reading.
   */
  lemma {:induction false} PlayLoopSplit(terminal: bool, red: Actor, blue: Actor, b: Board,
                                         winner: Option<GameResult>, ticks: seq<Tick>, n: nat)
    requires b.Valid() && red.side == Red && blue.side == Blue && n <= |ticks|
    ensures var first := PlayLoop(terminal, red, blue, b, winner, ticks[..n]);
      first.Unfinished? ==>
        PlayLoop(terminal, red, blue, b, winner, ticks) == PlayLoop(terminal, red, blue, first.board, first.winner, ticks[n..])
    ensures var first := PlayLoop(terminal, red, blue, b, winner, ticks[..n]);
      !first.Unfinished? ==> PlayLoop(terminal, red, blue, b, winner, ticks) == first
    decreases n
  {
    if n == 0 {
      assert ticks[..0] == [] && ticks[0..] == ticks;
    } else {
      SliceStep(ticks, n);
      assert ticks[..n][..1] == ticks[..1];
      PlayLoopStep(terminal, red, blue, b, winner, ticks);
      PlayLoopStep(terminal, red, blue, b, winner, ticks[..n]);
      var step := PlayLoop(terminal, red, blue, b, winner, ticks[..1]);
      if step.Unfinished? {
        PlayLoopSplit(terminal, red, blue, step.board, step.winner, ticks[1..], n - 1);
      }
    }
  }

  /**
    One iteration of the loop: the outcome of the first tick alone either
    ends the run or gives the board and winner the rest of the ticks start from.
   */
  lemma PlayLoopStep(terminal: bool, red: Actor, blue: Actor, b: Board, winner: Option<GameResult>, ticks: seq<Tick>)
    requires b.Valid() && red.side == Red && blue.side == Blue && ticks != []
    ensures var step := PlayLoop(terminal, red, blue, b, winner, ticks[..1]);
      && (step.Unfinished? ==>
            step.board.Valid() && step.board.width == b.width && step.board.height == b.height &&
            PlayLoop(terminal, red, blue, b, winner, ticks) == PlayLoop(terminal, red, blue, step.board, step.winner, ticks[1..]))
      && (!step.Unfinished? ==> PlayLoop(terminal, red, blue, b, winner, ticks) == step)
  {
    assert ticks[..1][0] == ticks[0] && ticks[..1][1..] == [];
  }


  /** Blue's half of a round keeps every piece on a dark square. */
  lemma BlueTurnKeepsDarkSquares(blue: Actor, b: Board, input: ActorInput, moves: nat)
    requires b.Valid() && blue.side == Blue && DarkSquares(b)
    ensures var r := BlueTurn(blue, b, input, moves);
      !r.RoundPanicked? ==> DarkSquares(r.board)
  {
    var o := Act(blue, b, input);
    if !o.NotImplemented? {
      DarkSquaresSamePieces(b, o.board);
      if o.Acted? && o.result.TookAction? {
        LegalIsDiagonal(b, Blue, o.result.action);
        DoActionKeepsDarkSquares(o.board, o.result.action);
      }
    }
  }

  /** A round keeps every piece on a dark square. */
  lemma RoundKeepsDarkSquares(red: Actor, blue: Actor, b: Board, tick: Tick)
    requires b.Valid() && red.side == Red && blue.side == Blue && DarkSquares(b)
    ensures var r := Round(red, blue, b, tick);
      !r.RoundPanicked? ==> DarkSquares(r.board)
  {
    var o := Act(red, b, tick.red);
    if !o.NotImplemented? {
      DarkSquaresSamePieces(b, o.board);
      if o.Acted? && o.result.TookAction? {
        LegalIsDiagonal(b, Red, o.result.action);
        DoActionKeepsDarkSquares(o.board, o.result.action);
        BlueTurnKeepsDarkSquares(blue, DoAction(o.board, o.result.action), tick.blue, 1);
      }
    }
  }

  /** However the game goes, every board it reaches has all pieces on dark squares. */
  lemma {:induction false} PlayLoopKeepsDarkSquares(terminal: bool, red: Actor, blue: Actor, b: Board,
                                                    winner: Option<GameResult>, ticks: seq<Tick>)
    requires b.Valid() && red.side == Red && blue.side == Blue && DarkSquares(b)
    ensures var out := PlayLoop(terminal, red, blue, b, winner, ticks);
      (out.Returned? || out.Unfinished? || out.Blocked?) ==> out.board.Valid() && DarkSquares(out.board)
    decreases |ticks|
  {
    if ticks != [] && !(terminal && ticks[0].exitRequested) && winner.None? {
      var r := Round(red, blue, b, ticks[0]);
      RoundKeepsDarkSquares(red, blue, b, ticks[0]);
      if r.Played? {
        PlayLoopKeepsDarkSquares(terminal, red, blue, r.board, r.winner, ticks[1..]);
      }
    } else if ticks != [] && !(terminal && ticks[0].exitRequested) && terminal {
      PlayLoopKeepsDarkSquares(terminal, red, blue, b, winner, ticks[1..]);
    }
  }

  /** A game started from the initial layout only ever shows pieces on dark squares. */
  lemma PlayFromNewKeepsDarkSquares(width: U8, height: U8, terminal: bool,
                                    redType: ActorType, blueType: ActorType, ticks: seq<Tick>)
    ensures var out := Play(Game(New(width, height), terminal), redType, blueType, ticks);
      (out.Returned? || out.Unfinished? || out.Blocked?) ==> out.board.Valid() && DarkSquares(out.board)
  {
    NewOnDarkSquares(width, height);
    if terminal || (redType != Human && blueType != Human) {
      PlayLoopKeepsDarkSquares(terminal, Actor(redType, Red), Actor(blueType, Blue), New(width, height), None, ticks);
    }
  }

  /** Between two Random actors a round always completes: nobody waits and nobody panics. */
  lemma RandomRoundCompletes(red: Actor, blue: Actor, b: Board, tick: Tick)
    requires b.Valid() && red == Actor(Random, Red) && blue == Actor(Random, Blue)
    ensures Round(red, blue, b, tick).Played?
  {
    RandomAlwaysDecides(red, b, tick.red);
    var o := Act(red, b, tick.red);
    if o.result.TookAction? {
      LegalIsDiagonal(b, Red, o.result.action);
      RandomAlwaysDecides(blue, DoAction(o.board, o.result.action), tick.blue);
    }
  }

  /** Random against Random never blocks and never panics, whatever the draws and however long it runs. */
  lemma {:induction false} RandomLoopNeverStalls(terminal: bool, red: Actor, blue: Actor, b: Board,
                                                 winner: Option<GameResult>, ticks: seq<Tick>)
    requires b.Valid() && red == Actor(Random, Red) && blue == Actor(Random, Blue)
    ensures var out := PlayLoop(terminal, red, blue, b, winner, ticks);
      out.Returned? || out.Unfinished?
    decreases |ticks|
  {
    if ticks != [] && !(terminal && ticks[0].exitRequested) && !(!terminal && winner.Some?) {
      if winner.Some? {
        RandomLoopNeverStalls(terminal, red, blue, b, winner, ticks[1..]);
      } else {
        RandomRoundCompletes(red, blue, b, ticks[0]);
        var r := Round(red, blue, b, ticks[0]);
        RandomLoopNeverStalls(terminal, red, blue, r.board, r.winner, ticks[1..]);
      }
    }
  }

  /**
    A headless game in which Red starts without a move ends at once: Blue is
    recorded as winner with 0 moves, no piece moves, and the next iteration
    returns that result.
   */
  lemma RedWithoutMovesLoses(g: Game, redType: ActorType, blueType: ActorType, ticks: seq<Tick>)
    requires g.board.Valid() && !g.terminal && redType != Human && blueType != Human
    requires AllMoves(g.board, Red) == map[] && |ticks| >= 2
    ensures Play(g, redType, blueType, ticks) == Returned(Some(GameResult(0, Blue)), g.board)
  {
    RoundBlueWins(Actor(redType, Red), Actor(blueType, Blue), g.board, ticks[0]);
  }
}

=== FILE: grid.dfy ===
/**
  Enumeration of the points of a board in the order the nested
  `for x in 0..width { for y in 0..height { .. } }` loops of the rules engine
  visit them (x-major, then y), and an order-preserving filter over such
  enumerations.
 */
module Grid {
  import opened Primitives

  /** `p` is visited before `q` by the nested x-then-y loops. */
  predicate Before(p: Point, q: Point)
  {
    p.x < q.x || (p.x == q.x && p.y < q.y)
  }

  /** Strictly increasing in visiting order, hence free of duplicates. */
  predicate Ascending(s: seq<Point>)
  {
    forall i, j :: 0 <= i < j < |s| ==> Before(s[i], s[j])
  }

  /** The points `(x, 0) .. (x, h - 1)` in increasing `y`. */
  function Column(x: U8, h: nat): (s: seq<Point>)
    requires h <= 256
    ensures |s| == h
    ensures forall p :: p in s <==> p.x == x && p.y < h
    ensures Ascending(s)
  {
    if h == 0 then []
    else
      var prefix := Column(x, h - 1);
      ConcatAscending(prefix, [Point(x, h - 1)]);
      prefix + [Point(x, h - 1)]
  }

  /** Every point with `x < w` and `y < h`, in x-major order. */
  function Points(w: nat, h: nat): (s: seq<Point>)
    requires w <= 256 && h <= 256
    ensures forall p :: p in s <==> p.x < w && p.y < h
    ensures Ascending(s)
  {
    if w == 0 then []
    else
      var prefix := Points(w - 1, h);
      var col := Column(w - 1, h);
      ConcatAscending(prefix, col);
      prefix + col
  }

  /** Two ascending runs, the first wholly before the second, make one ascending run. */
  lemma ConcatAscending(s: seq<Point>, t: seq<Point>)
    requires Ascending(s) && Ascending(t)
    requires forall p, q :: p in s && q in t ==> Before(p, q)
    ensures Ascending(s + t)
  {
    var st := s + t;
    forall i, j | 0 <= i < j < |st| ensures Before(st[i], st[j]) {
      if j < |s| {
        assert st[i] == s[i] && st[j] == s[j];
      } else if i >= |s| {
        assert st[i] == t[i - |s|] && st[j] == t[j - |s|];
      } else {
        assert st[i] == s[i] && s[i] in s;
        assert st[j] == t[j - |s|] && t[j - |s|] in t;
      }
    }
  }

  /** The elements of `s` that lie in `keep`, in their original order. */
  function Select(s: seq<Point>, keep: set<Point>): (r: seq<Point>)
    ensures |r| <= |s|
    ensures forall p :: p in r <==> p in s && p in keep
    ensures Ascending(s) ==> Ascending(r)
  {
    if s == [] then []
    else
      var rest := Select(s[1..], keep);
      assert forall p :: p in s[1..] ==> p in s;
      if s[0] in keep then
        assert Ascending(s) ==> Ascending([s[0]] + rest) by {
          if Ascending(s) {
            forall p | p in rest ensures Before(s[0], p) {
              var k :| 0 <= k < |s[1..]| && s[1..][k] == p;
              assert s[k + 1] == p;
            }
            ConcatAscending([s[0]], rest);
          }
        }
        [s[0]] + rest
      else
        rest
  }

  /**
    An ascending sequence is determined by its members: two ascending
    sequences with the same elements are equal. So filtering an ascending
    enumeration keeps the enumeration's order.
   */
  lemma {:induction false} AscendingUnique(r: seq<Point>, r': seq<Point>)
    requires Ascending(r) && Ascending(r')
    requires forall p :: p in r <==> p in r'
    ensures r == r'
    decreases |r|
  {
    assert r != [] ==> r[0] in r';
    assert r' != [] ==> r'[0] in r;
    if r != [] {
      var k :| 0 <= k < |r'| && r'[k] == r[0];
      var m :| 0 <= m < |r| && r[m] == r'[0];
      assert k == 0;
      forall p ensures p in r[1..] <==> p in r'[1..] {
        assert p in r[1..] <==> p in r && p != r[0];
        assert p in r'[1..] <==> p in r' && p != r'[0];
      }
      AscendingUnique(r[1..], r'[1..]);
      assert r == [r[0]] + r[1..] && r' == [r'[0]] + r'[1..];
    }
  }
}

=== FILE: primitives.dfy ===
/**
  The plain value types shared by the rules engine, the actors and the turn
  loop: an unsigned 8-bit coordinate, a board point, the two sides and a piece.
  They carry no behaviour of their own beyond equality.
 */
module Primitives {

  /** The range of a Rust `u8`: every coordinate and every board dimension. */
  type U8 = n: int | 0 <= n < 256

  /** Rust's `Option`. */
  datatype Option<+T> = None | Some(value: T)

  /** A board coordinate; `x` selects the column, `y` the row. */
  datatype Point = Point(x: U8, y: U8)

  /** The two players. Red starts on the low rows and moves towards higher `y`. */
  datatype Side = Red | Blue

  /** A piece belongs to one side and may be crowned (promoted). */
  datatype Piece = Piece(side: Side, crowned: bool)

  /** `a.abs_diff(b)` on two `u8` values. */
  function AbsDiff(a: U8, b: U8): U8
  {
    if a >= b then a - b else b - a
  }

  /**
    Slice identities for stepping through a sequence one element at a time,
    stated once so that proofs about heavy functions of sequences need no
    extensionality reasoning of their own.
   */
  lemma SliceStep<T>(s: seq<T>, n: nat)
    requires 0 < n <= |s|
    ensures s[..n][0] == s[0] && s[..n][1..] == s[1..][..n - 1]
    ensures s[n..] == s[1..][n - 1..]
    ensures s[n - 1..][0] == s[n - 1] && s[n - 1..][1..] == s[n..]
  {
  }

  /**
    A run that ignores a leading element whenever `skip` holds of it ignores
    any prefix of such elements.
   */
  lemma {:induction false} SkipPrefix<T, R>(f: seq<T> -> R, skip: T -> bool, s: seq<T>, i: nat)
    requires i <= |s|
    requires forall t: seq<T> :: t != [] && skip(t[0]) ==> f(t) == f(t[1..])
    requires forall k :: 0 <= k < i ==> skip(s[k])
    ensures f(s) == f(s[i..])
    decreases i
  {
    if i > 0 {
      SkipPrefix(f, skip, s, i - 1);
      SliceStep(s, i);
      assert skip(s[i - 1..][0]);
    }
  }
}

=== FILE: sides.dfy ===
/**
  Friend/foe classification of the contents of a cell, relative to one side.
  An empty cell is neither friendly nor hostile.
 */
module Sides {
  import opened Primitives

  /** The side a given side plays against. */
  function Opponent(side: Side): Side
  {
    match side
    case Red => Blue
    case Blue => Red
  }

  /** `Side::piece_is_friendly`: the cell holds a piece of `side`. */
  predicate IsFriendly(side: Side, piece: Option<Piece>): (r: bool)
    ensures r ==> piece.Some? && piece.value.side != Opponent(side)
    ensures piece.Some? && !r ==> piece.value.side == Opponent(side)
  {
    match piece
    case None => false
    case Some(p) => p.side == side
  }

  /** `Side::piece_is_hostile`: the cell holds a piece of the other side. */
  predicate IsHostile(side: Side, piece: Option<Piece>): (r: bool)
    ensures piece.None? ==> !r
    ensures piece.Some? ==> (r <==> !IsFriendly(side, piece))
    ensures r <==> IsFriendly(Opponent(side), piece)
  {
    match piece
    case None => false
    case Some(p) => p.side != side
  }

  /** An empty cell is neither friendly nor hostile to either side. */
  lemma EmptyIsNeutral(side: Side)
    ensures !IsFriendly(side, None) && !IsHostile(side, None)
  {
  }

  /** A piece is friendly to exactly one side, and hostile to exactly the other. */
  lemma ExactlyOneOwner(p: Piece)
    ensures IsFriendly(p.side, Some(p)) && !IsHostile(p.side, Some(p))
    ensures !IsFriendly(Opponent(p.side), Some(p)) && IsHostile(Opponent(p.side), Some(p))
    ensures forall side :: IsFriendly(side, Some(p)) != IsHostile(side, Some(p))
  {
  }

  /** Red's hostile test agrees with Blue's friendly test, and vice versa. */
  lemma HostileMirrorsFriendly(piece: Option<Piece>)
    ensures IsHostile(Red, piece) == IsFriendly(Blue, piece)
    ensures IsHostile(Blue, piece) == IsFriendly(Red, piece)
  {
  }
}
